=== FILE: README.md ===
# django-balanced, modelled in Dafny

django-balanced is a Django application. It mirrors the resources of the
hosted Balanced payments API in local database tables: bank accounts,
cards, credits (payouts), debits and marketplace accounts. It adds admin
pages to create them, plus a bulk payout workflow. An administrator selects
bank accounts and enters one payout per account. The whole batch is paid
only when every payout is valid and the marketplace escrow covers the
total.

The model has eight modules, one file each:

- `Wrappers` (wrappers.dfy) holds the `Option` and `Result` types.
- `Money` (money.dfy) holds amounts as Python `Decimal` values written as
  an unscaled integer and a count of decimal places. It converts them to
  integer cents and gives the digit and place checks of Django's
  `DecimalField`.
- `Resources` (resources.dfy) holds the attribute values of a local or
  remote resource. It also models the field-copy rule `_sync`, the URI
  every row is keyed by, and the "View on Balanced" dashboard link.
- `Mirror` (mirror.dfy) models the local tables. `Table` maps a URI to a
  row and `Resource` is one model instance.
  - `Resource` has one save method per kind, proved against the
    `Saved*` specification functions. Each save takes the create branch
    when there is no URI and the refresh branch otherwise.
  - It also covers the deletes, the bulk upsert `sync`, `Debit.clean`,
    the debit's funding-source fallback, and `Account.debit` /
    `Account.credit`.
  - Every call of the payments client is a `Request` handed to `api`, a
    total function that stands for the payments API. Its reply is the
    resource, or the HTTP error the client raises. A save lists its
    calls in source order and stops at the first that fails.
- `Forms` (forms.dfy): field validation of the bank-account add form, the
  credit add form and the payout form. A form validates to either the
  cleaned data or a list of field errors. Also the single-credit escrow
  check and `PayoutForm.save`.
- `Formsets` (formsets.dfy): the bulk payout formset. It has no extra
  forms and checks the escrow once for the whole batch.
- `Views` (views.dfy): the confirmation view as a class `AdminSession`.
  The class holds the session map, the bank-account table's keys and the
  log of credits issued.
- `Admin` (admin.dfy): the choice of add form, the bulk payout action,
  and the two `save_model` hooks.

The escrow balance, the remote replies and the rows a save reaches through
its relations (`Links`) are parameters.

## Model

| member | source | states |
|---|---|---|
| `Money.ToCents` | django_balanced/formsets.py:14 | a form amount with at most two places times 100 is an exact whole number of cents: `c × 10^places = unscaled × 100` |
| `Money.IntCents` | django_balanced/forms.py:42 | `int(amount * 100)` equals the exact cents whenever the amount has at most two places |
| `Money.IntCentsTruncates` | django_balanced/admin.py:77 | `int(amount * 100)` keeps the amount's sign and truncates toward zero: `abs(c) × 10^places ≤ abs(unscaled) × 100 < (abs(c) + 1) × 10^places` |
| `Money.FromCents` | django_balanced/models.py:223 | the credit amount stored from the remote cents value is that many hundredths, so converting it back gives the same cents |
| `Money.AtLeastMinPayoutInCents` | django_balanced/forms.py:52 | for a two-place amount, `min_value=Decimal('.50')` holds iff the amount is at least 50 cents |
| `Money.CreditAmountFieldInCents` | django_balanced/forms.py:29 | `DecimalField(max_digits=10, decimal_places=2)` accepts an amount iff it has at most two places and its magnitude in cents is below 10^10 |
| `Resources.SyncedFieldAt` | django_balanced/models.py:58-63 | over the field names it visits, `_sync` sets a field iff the model lists it and the remote object has it with a string, int, bool or datetime value; every other field keeps its value and none is dropped. Where the visit stops, at a relation given such a value, is `SyncReach` |
| `Resources.SyncReach` | django_balanced/models.py:58-63 | `_sync` gets through every name before this count without raising, and when it stops early, the name it stops at is a relation the remote object gives a string, int, bool or datetime, which `setattr` refuses |
| `Resources.SyncKeepsRelation` | django_balanced/models.py:58-63 | a `_sync` that goes through every name leaves every relation as it was |
| `Resources.SyncedFieldsIdempotent` | django_balanced/models.py:58-63 | copying twice from the same remote object gives the same fields as copying once |
| `Resources.SyncedUri` | django_balanced/models.py:58-63 | the remote object's URI always survives `_sync` into the local record |
| `Resources.Drop` | django_balanced/models.py:41 | `uri[3:]` is what follows the first three characters, and is empty for a shorter URI |
| `Resources.SyncedFields` | django_balanced/models.py:58-63 | `_sync` never drops a field the local record has |
| `Resources.DashboardLink` | django_balanced/models.py:38-42 | the link opens with `<a href="` followed by the dashboard URL |
| `Resources.DashboardLinkTarget` | django_balanced/models.py:38-42 | the link's href is the dashboard URL followed by the URI minus its first three characters |
| `Mirror.Schema` | django_balanced/models.py:29-33 | every model lists the shared columns `id`, `uri` and `created_at` |
| `Mirror.Relations` | django_balanced/models.py:69-70 | the relations of a model (its foreign keys, such as `user` and `Credit.bank_account`, and the reverse relations `credits` and `debits`) never include the shared columns `id`, `uri` and `created_at` |
| `Mirror.NonNullRelation` | django_balanced/models.py:135-137 | a card's user is a NOT NULL relation column, and so are a debit's user (models.py:237-239), an account's one-to-one user (models.py:311-312) and a credit's bank account (models.py:192-194); only a bank account has none, its user being `null=True` (models.py:69-71) |
| `Mirror.WriteError` | django_balanced/models.py:101 | writing a row raises the database's NOT NULL error exactly when the model's NOT NULL relation is empty, naming that relation |
| `Mirror.SyncRefusal` | django_balanced/models.py:58-63 | `_sync` raises iff some field the model lists is a relation the remote object gives a string, int, bool or datetime, and the field it raises at is such a relation |
| `Mirror.SyncedUpTo` | django_balanced/models.py:58-63 | a `_sync` that does not raise copies every field as `SyncedFields` states |
| `Mirror.NewRecord` | django_balanced/models.py:54 | a freshly constructed instance (`cls()`) has no URI, "" in every CharField declared without `null=True`, no related object set, and no field the model does not declare |
| `Mirror.Refreshed` | django_balanced/models.py:95-101 | one more call is appended to the calls made so far; a failed call raises its HTTP error and leaves the fields alone; a reply is copied in with `_sync`, which raises `BadRelation` at a relation given a plain value (`CopiedReply`), and otherwise copies every field and makes the reply's URI the record's; the row is then written, which fails as `WriteError` states |
| `Mirror.SavedBankAccount` | django_balanced/models.py:85-101 | no URI: one call creating the account from routing number, account number, name and type; with a URI: fetch it by URI, then send the fetched account back. The calls stop at the first failure; the only errors are HTTP errors and `_sync`'s `BadRelation`; when the last call failed, or none was made, the fields are as they were; when it succeeded, its reply is copied in as `CopiedReply` states, completely when there is no error |
| `Mirror.SavedCard` | django_balanced/models.py:157-167 | with a URI: one fetch by URI. No URI and no marketplace account: `DoesNotExist` with no call. Otherwise fetch the account, attach the card token to it, make the token the URI and fetch the card by it. The calls stop at the first failure; the only other errors are HTTP errors and `BadRelation`; when the last call failed the fields are as they were, with the token as the URI once the card fetch was reached; when it succeeded the fetched card is copied in as `CopiedReply` states, and a card without a user is refused when its row is written (`NotNull("user")`) |
| `Mirror.CreditAfterReply` | django_balanced/models.py:222-227 | the reply is copied in with `_sync`, and a relation given a plain value raises `BadRelation` there. Otherwise the amount becomes the reply's integer cents divided by 100, every other field is the copied one, a credit with a bank account keeps it, and one without takes the local row the reply names; a reply without integer cents, without a bank-account reference, or naming a bank account with no local row raises |
| `Mirror.SavedCredit` | django_balanced/models.py:206-228 | with a URI: fetch the credit. No URI and no bank account: `MissingRelation` with no call. Otherwise fetch the bank account and post amount, description and statement descriptor to its `credits_uri` (a reply without one raises). The calls stop at the first failure, a failed call leaves the fields alone, and a reply is stored as `CreditAfterReply` states. A credit stored without error always has its bank account, so its NOT NULL column is never refused |
| `Mirror.NewCreditKeepsBankAccount` | django_balanced/models.py:207-226 | a new credit saved without error is still linked to the bank account it was posted under, and that bank account was the first call |
| `Mirror.DebitSource` | django_balanced/models.py:273-279 | the source is the card, else the bank account, else the user's first card; with none of them the lookup fails |
| `Mirror.SavedDebit` | django_balanced/models.py:271-294 | with a URI: fetch the debit. No URI and no marketplace account: `DoesNotExist` with no call. Otherwise fetch the account, pick the source (none raises `NoCardOnFile` after the fetch), debit the account for amount, description and statement descriptor from that source, and send the debit back. The calls stop at the first failure; when the last call failed, or `NoCardOnFile` was raised, the fields are as they were; otherwise the last reply is copied in as `CopiedReply` states |
| `Mirror.SavedAccount` | django_balanced/models.py:317-328 | no URI: one call creating the account under the user's username, its reply copied in as `CopiedReply` states; with a URI: no remote call, the fields kept, and the row refused (`NotNull("user")`) iff the account has no user. A failed call leaves the fields alone |
| `Mirror.SavedAs` | django_balanced/models.py:56 | `save()` of an instance of any kind makes its calls in order and stops at the first that fails, raising that call's error |
| `Mirror.Invalidated` | django_balanced/models.py:171 | the card sent back has `is_valid` set to False and keeps its URI |
| `Mirror.DeleteOutcome` | django_balanced/models.py:103-106 | a bank account is fetched, then the fetched resource is deleted remotely; a card is fetched, then sent back marked invalid (models.py:169-173); the calls stop at the first failure and raise only HTTP errors. Credits, debits and accounts always execute `raise NotImplemented` without any call (models.py:230-231, 304-305, 356-357). `NotImplemented` is not an exception class, so Python raises TypeError there; the model's `NotImplemented` error names that outcome |
| `Mirror.Upserted` | django_balanced/models.py:52-55 | the instance `sync` saves for a remote resource carries that resource's URI |
| `Mirror.UpsertAllKeys` | django_balanced/models.py:49-56 | an upsert-by-URI over a query leaves exactly the old keys plus the query's URIs |
| `Mirror.UpsertAllUntouched` | django_balanced/models.py:49-56 | a key that no queried resource has keeps its row |
| `Mirror.UpsertAllContents` | django_balanced/models.py:49-56 | with distinct URIs, each queried URI's row is the one written from the row that was there before |
| `Mirror.SyncStep` | django_balanced/models.py:51-56 | one resource of `sync`: a `_sync` that raises `BadRelation` at a relation, or a save that raises, stops with the table as it was |
| `Mirror.SyncSaved` | django_balanced/models.py:52-56 | the save `sync` runs for a resource makes its calls in order and stops at the first that fails, raising that call's error |
| `Mirror.SyncRun` | django_balanced/models.py:49-56 | `sync` over a query writes or overwrites rows and never removes one |
| `Mirror.SyncRunStops` | django_balanced/models.py:50-56 | the first save that raises ends `sync`: the rows written before it stay, and no later resource is visited |
| `Mirror.SavedKeepsUri` | django_balanced/models.py:94-100 | a save of a record that has a URI and raises nothing keeps that URI, when the payments API answers a fetch with the resource asked for |
| `Mirror.SyncStepWrites` | django_balanced/models.py:52-56 | a save that raises nothing writes its row under the remote resource's URI, with what the save stored |
| `Mirror.SyncRunUpserts` | django_balanced/models.py:49-56 | a `sync` that raises nothing is the upsert by URI of every queried resource, each row being what that resource's save stored |
| `Mirror.SyncAllKeys` | django_balanced/models.py:49-56 | after a `sync` that raises nothing there is exactly one row per old row or remote URI, never two under one URI |
| `Mirror.SyncAllUntouched` | django_balanced/models.py:49-56 | after a `sync` that raises nothing, rows whose URI is not in the query are unchanged, and none is created |
| `Mirror.SyncAllContents` | django_balanced/models.py:49-56 | after a `sync` that raises nothing, each remote resource's row is what its kind's save stored after `_sync` onto the existing row with its URI or a new instance |
| `Mirror.SyncCreditStoresUnits` | django_balanced/models.py:220-223 | the save `sync` runs for a credit fetches it again by URI and stores the amount as the reply's cents in two-place currency units |
| `Mirror.SyncNewRowRefused` | django_balanced/models.py:50-56 | `sync` cannot add a card, a debit or an account: for a remote resource with no local row, the step raises (an HTTP error, a relation given a plain value, or the empty NOT NULL user of the new instance `cls()`) and leaves the table as it was |
| `Mirror.SaveWithoutUserRefused` | django_balanced/models.py:157-167 | the save of a card that has a URI but no user always raises, and so does that of a debit (models.py:271-294) or an account (models.py:317-328): an HTTP error, a relation given a plain value, or the refused row |
| `Mirror.DebitCleanAsWritten` | django_balanced/models.py:260-268 | as written, a debit without a card is always rejected with "Must have either", and that is the only message `clean` can return |
| `Mirror.DebitCleanAsWrittenAccepts` | django_balanced/models.py:260-268 | as written, `clean` accepts exactly a debit with a card and no bank account, and the "Cannot include both" error can never be raised |
| `Mirror.DebitCleanRejectsBankOnly` | django_balanced/models.py:261-264 | as written, a debit funded only by a bank account is rejected with "Must have either" |
| `Mirror.DebitClean` | django_balanced/models.py:260-268 | as intended: accepted iff exactly one source is set; both gives "Cannot include both", neither gives "Must have either" |
| `Mirror.NewDebitBase` | django_balanced/models.py:331-336 | the debit built from the arguments has no URI, the given amount, description, statement descriptor and user, and no card or bank account |
| `Mirror.NewDebitFields` | django_balanced/models.py:330-340 | the new debit carries amount, description, statement descriptor and the account's user; the card when given, else the bank account when given |
| `Mirror.AccountDebitSource` | django_balanced/models.py:330-342 | a debit through `Account.debit` is funded by the card passed, else the bank account passed, else the user's first card |
| `Mirror.NewCreditFields` | django_balanced/models.py:344-353 | the new credit has no URI and carries the given values, the account's user and the status "s" (scheduled) |
| `Mirror.Table.SyncOne` | django_balanced/models.py:51-56 | one pass of the loop: `_sync` onto the row with the URI or a new instance, then that kind's save; the table and the error are those of `SyncStep` |
| `Mirror.Table.SyncAll` | django_balanced/models.py:48-56 | the loop leaves the table and the error of `SyncRun` over the old table and the query |
| `Mirror.Resource.Sync` | django_balanced/models.py:58-63 | the loop over field names stops at the first relation given a plain value and returns its name, which is `SyncRefusal`; the fields are those `SyncedUpTo` copies, so every field when it does not stop |
| `Mirror.Resource.Persist` | django_balanced/models.py:101 | the model's base save writes this instance's row under its URI and changes nothing else, unless the database refuses it for an empty NOT NULL relation, which is then the error and nothing is written |
| `Mirror.Resource.Refresh` | django_balanced/models.py:95-101 | the outcome is `Refreshed`, and the row is written only when there is no error |
| `Mirror.Resource.SaveBankAccount` | django_balanced/models.py:85-101 | the outcome is `SavedBankAccount`; the row is written only on success |
| `Mirror.Resource.SaveCard` | django_balanced/models.py:157-167 | the outcome is `SavedCard`; the row is written only on success |
| `Mirror.Resource.StoreCredit` | django_balanced/models.py:222-228 | the outcome is `CreditAfterReply`; the row is written only on success |
| `Mirror.Resource.SaveCredit` | django_balanced/models.py:206-228 | the outcome is `SavedCredit`; the row is written only on success |
| `Mirror.Resource.SaveDebit` | django_balanced/models.py:271-294 | the outcome is `SavedDebit`; the row is written only on success |
| `Mirror.Resource.SaveAccount` | django_balanced/models.py:317-328 | the outcome is `SavedAccount`; the row is written only on success |
| `Mirror.Resource.Save` | django_balanced/models.py:56 | `save()` of an instance of any kind has that kind's save outcome; the row is written only on success |
| `Mirror.Resource.Delete` | django_balanced/models.py:103-106 | the outcome is `DeleteOutcome`; the row is removed only when the remote side succeeded |
| `Mirror.AccountDebit` | django_balanced/models.py:330-342 | a fresh debit is built by `NewDebitFields` and saved as `SavedDebit` |
| `Mirror.AccountCredit` | django_balanced/models.py:344-354 | a fresh credit is built by `NewCreditFields` and saved as `SavedCredit` |
| `Mirror.AccountDebitCall` | django_balanced/models.py:330 | a keyword call of `Account.debit` raises TypeError iff some keyword is not one of its five parameters (naming exactly those), or, all keywords being parameters, `amount` or `description`, which have no default, is missing (naming the missing ones); otherwise the debit is saved, its calls stopping at the first failure |
| `Mirror.OriginDebitAsWrittenRaises` | django_balanced/models.py:122-129 | as written, `BankAccount.debit` (and `Card.debit`, models.py:175-182) for a user with an account always raises TypeError for `appears_on_statement_as`, before any remote call |
| `Mirror.OriginKwargsBind` | django_balanced/models.py:122-129 | with `statement_descriptor`, every keyword those two methods pass is a parameter of `Account.debit`, and the instance is the only source among them |
| `Mirror.OriginKwargsDebit` | django_balanced/models.py:122-129 | with `statement_descriptor`, the call is `Account.debit`'s save of a debit whose funding source is the instance |
| `Mirror.OriginDebitFunded` | django_balanced/models.py:122-129 | as intended, once the user's account is fetched, the debit is created on it with the amount, description and statement descriptor given, funded by the bank account or card the method was called on |
| `Forms.CheckText` | django_balanced/forms.py:10-12 | a text field is accepted iff it is non-empty when required and within its maximum length |
| `Forms.CheckChoice` | django_balanced/forms.py:31 | a model choice is accepted iff a key is given and it names an existing row |
| `Forms.ParseAccountType` | django_balanced/forms.py:13-15 | the type is accepted iff it is "savings" or "checking", and parses back to its own name |
| `Forms.AccountTypeRoundTrip` | django_balanced/forms.py:13-15 | each account type's name parses back to that type |
| `Forms.ValidateBankAccountAdd` | django_balanced/forms.py:9-19 | the add form is valid iff name, account number and routing number are non-empty and at most 255 characters, the type is a valid choice and a user is chosen; the data are those values |
| `Forms.CheckDecimal` | django_balanced/forms.py:29 | a decimal passes iff it fits the field's digit and place limits; with no digit limit, only the places count |
| `Forms.ValidateCreditFields` | django_balanced/forms.py:28-35 | the credit form's fields are valid iff the amount is given and fits 10 digits and 2 places, the description has at most 255 characters, the bank account exists, and the statement descriptor has 1 to 12 characters |
| `Forms.CleanCredit` | django_balanced/forms.py:37-46 | invalid fields are returned with their errors and no escrow check; otherwise the credit is refused, with the one form-level error, iff `int(amount * 100)` exceeds the escrow |
| `Forms.CreditFormAccepts` | django_balanced/forms.py:37-46 | the credit form is accepted iff its fields are valid and the amount in cents is at most the escrow; equality is accepted |
| `Forms.CreditInvalidIgnoresEscrow` | django_balanced/forms.py:38-39 | an invalid credit form's outcome is the same whatever the escrow balance |
| `Forms.ValidatePayout` | django_balanced/forms.py:49-53 | a payout form is valid iff its bank account exists, the amount is given with at most two places and at least 0.50, and the description is non-empty |
| `Forms.PayoutAmountInCents` | django_balanced/forms.py:52 | for a two-place amount, the payout form's amount check is "at least 50 cents" |
| `Forms.SavePayout` | django_balanced/forms.py:55-60 | saving an invalid form fails its assertion; a valid one orders one credit on the chosen bank account, of at least 50 cents, for amount × 100 with the description |
| `Formsets.UnboundFormCount` | django_balanced/formsets.py:19-20 | with `extra=0` the formset shows exactly one form per initial entry |
| `Formsets.TotalCents` | django_balanced/formsets.py:14 | the total of the batch's amounts in cents is never negative |
| `Formsets.Clean` | django_balanced/formsets.py:10-17 | with any invalid form there is no formset error; otherwise there is exactly one, "insufficient funds", iff the total in cents exceeds the escrow; never any other |
| `Formsets.IsValid` | django_balanced/formsets.py:10-17 | the formset is valid iff no form has errors and the total in cents is at most the escrow |
| `Formsets.TotalCentsAppend` | django_balanced/formsets.py:14 | the total of two batches joined is the sum of their totals |
| `Formsets.TotalCentsAtLeast` | django_balanced/formsets.py:14 | a batch of valid forms totals at least 50 cents per form |
| `Formsets.TotalCentsRemove` | django_balanced/formsets.py:14 | taking one form out of a batch takes exactly its cents out of the total |
| `Formsets.TotalCentsPermutation` | django_balanced/formsets.py:14 | the total depends only on the multiset of forms, not their order |
| `Formsets.AnyErrorsPermutation` | django_balanced/formsets.py:11 | whether some form is invalid does not depend on the order of the forms |
| `Formsets.CleanPermutation` | django_balanced/formsets.py:14-17 | the formset's errors and validity do not depend on the order of the forms |
| `Formsets.RejectedBatchStaysRejected` | django_balanced/formsets.py:14-17 | a batch refused for its total stays refused when a further valid form is added |
| `Formsets.InvalidFormSkipsEscrow` | django_balanced/formsets.py:11-12 | one invalid form makes the formset invalid with no formset error, whatever the escrow |
| `Views.Queryset` | django_balanced/views.py:34-38 | the bank accounts shown are exactly the existing ones whose key was stored, each once |
| `Views.InitialFormsOfSelection` | django_balanced/views.py:45-49 | there is one initial payout form per distinct stored key that names an existing bank account |
| `Views.Orders` | django_balanced/views.py:27-29 | saving the forms of a batch issues at most one credit per form |
| `Views.OrdersOfValidBatch` | django_balanced/views.py:28-29 | a valid batch issues one credit per form, in form order, each to that form's bank account, for that form's amount in cents and with its description |
| `Views.OrdersCents` | django_balanced/views.py:28-29 | the credits of a valid batch add up to the batch total |
| `Views.ValidBatchWithinEscrow` | django_balanced/views.py:27-31 | a batch that passes the formset check never credits more than the escrow holds |
| `Views.AdminSession.PayoutComplete` | django_balanced/views.py:51-54 | completion removes only the selection key, issues nothing, and redirects to the bank-account list with the message |
| `Views.AdminSession.Dispatch` | django_balanced/views.py:16-32 | no selection: redirect to "../" with nothing changed. GET: render one form per selected account. Cancel: complete with the cancellation message and issue nothing. Valid POST: issue every form's credit in order, then complete. Invalid or empty POST: render again with nothing changed |
| `Admin.GetFormOptions` | django_balanced/admin.py:20-27 | the add form is the default only with no object and an add form set; every explicit keyword argument overrides, and nothing else is added |
| `Admin.BulkPayAction` | django_balanced/admin.py:40-43 | the session stores exactly the selected keys under the bulk-pay key, and the response redirects to the bulk-pay view |
| `Admin.SelectThenConfirm` | django_balanced/admin.py:40-43 | selecting accounts and opening the confirmation page shows exactly the selected accounts that exist |
| `Admin.PreparedBankAccount` | django_balanced/admin.py:53-61 | with the add form, name, account number, routing number and type are copied and the user only when given, with all other fields kept; with the change form nothing changes |
| `Admin.SaveBankAccountModel` | django_balanced/admin.py:53-62 | the instance is prepared as `PreparedBankAccount` and then saved as `SavedBankAccount` |
| `Admin.AddPageCreatesFromForm` | django_balanced/admin.py:53-62 | a bank account added on the add page is created remotely from exactly the four values typed into the form |
| `Admin.PreparedCredit` | django_balanced/admin.py:74-80 | with the add form, the amount becomes `int(amount * 100)` cents, the bank account is set, the user is that bank account's user and the description is copied; with the change form nothing changes |
| `Admin.SaveCreditModel` | django_balanced/admin.py:74-81 | the instance is prepared as `PreparedCredit` and then saved as `SavedCredit` |
| `Admin.AddPageCreditCreatesFromForm` | django_balanced/admin.py:74-81 | a valid credit added on the add page first fetches the chosen bank account; when the reply has a credits URI, exactly one credit is then posted there, for the form's amount in cents, with its description and the instance's statement descriptor |

## Left out

- The `balanced` client library is a parameter, `api`, and is not modelled
  itself. Each client call is one `Request`; an attribute read on a
  fetched resource (the bank account's `credits_uri`) reads its reply.
- `Marketplace.my_marketplace.in_escrow` is the `escrow` parameter. The
  race between reading it and issuing the credits is not modelled.
- These are not modelled:
  - the Django ORM, admin registration, URL patterns, templates, flash
    messages and `staff_member_required`;
  - settings.py, listeners.py, apps.py, the migration and the tests.
- The float division `credit.amount / 100.0` is modelled as an exact
  two-place decimal of the remote cents.
- Mirror.SyncAllKeys, Mirror.SyncAllUntouched and Mirror.SyncAllContents
  hold only for a payments API that answers a fetch with the resource at
  the URI asked for and keeps a resource's URI when it is sent back
  (`KeepsUris`). Otherwise a save could store its row under another URI.
- Mirror.Table.SyncAll: one `Links` value serves every row of the query.
  The saves `sync` runs all take the refresh branch, which reads only the
  bank-account keys, and a card is saved without a token ("").
- Mirror.Upserted: a remote resource whose URI is empty is not
  represented; every remote object carries a non-empty URI.
- Mirror.DebitCleanAsWritten: the models module never imports `_`. So a
  rejection would surface as a `NameError` before the `ValidationError`
  is built. The model returns the message instead.
- Views.AdminSession.Dispatch: a remote error in the middle of a batch
  would stop the save loop after some credits. The model's credits always
  succeed (`CreditOrder` records the request), so partial batches are not
  modelled.
- `BankAccount.credit` is not modelled. It posts a credit through the
  client's bank-account object, copies the reply into a new `Credit`,
  sets its bank account, user, amount and statement descriptor, and saves
  it. That save takes the refresh branch of `Credit.save`, which is
  modelled (`SavedCredit`).
- `Debit.refund` is not modelled. It fetches the debit and refunds it
  remotely, with no local change.
- `Card.create_from_card_uri` is not modelled apart: it saves a new card
  with the given token, which is `SavedCard` on a `NewRecord`.
- `BankAccount.debit` and `Card.debit` are modelled as written and as
  intended (see Findings). Their `self.user` being None, which raises
  AttributeError, is not modelled.
- Mirror.SyncRefusal: `_sync` visits the names that
  `_meta.get_all_field_names()` returns. Django 1.7 and earlier sort
  them; from 1.8 their order is a set's. The model visits them in
  declaration order, `id` and `uri` first. When no relation is given a plain value, the order makes no
  difference. When one is, the relation named and the fields copied
  before the raise follow the model's order.
- Mirror.Schema: no version of the model lists the foreign-key column
  names `user_id`, `bank_account_id` and `card_id`, which Django may
  also return. A remote attribute of such a name with an int value would
  set the foreign-key column directly. That case is not modelled.
- Mirror.SavedCredit: `self.bank_account.find()` first loads the local
  bank-account row, so a foreign-key value with no local row raises
  DoesNotExist before any call. The model goes straight to the remote
  fetch. The admin form only offers existing rows.
- Mirror.Relations: assigning to a reverse relation (`credits`,
  `debits`) raises, as a foreign key does. Django's exception type for
  it differs by version. The model does not tell them apart: both are
  `BadRelation`.
- Formsets.TotalCents: `sum(...) * 100` is exact in the model. Python
  computes it in Decimal's default 28-digit context, and
  `PayoutForm.amount` sets no `max_digits`. So a batch whose total needs
  more than 28 significant digits (about 10^26 units) is rounded there.
- Session values are lists of keys (`seq<string>`). Other session
  contents keep their keys.
- The form management data, which gives the submitted form count, is not
  modelled. The submitted forms are the list given to the POST.
- The instance update a ModelForm performs during validation is not
  modelled: it copies the description and the statement descriptor onto
  the instance.
- Whitespace stripping and string-to-Decimal parsing are not modelled. A
  `Decimal` with a positive exponent (such as `1E+2`) is not represented.
- Forms.ValidateBankAccountAdd: the `user` field is required, because the
  model does not mark it blank. So `save_model`'s "only when a user is
  given" branch never runs for a validated form. `Admin.PreparedBankAccount`
  still models both branches.

## Findings

| source | as written | input that shows it | evidently intended | confidence | as-written member | corrected member |
|---|---|---|---|---|---|---|
| django_balanced/models.py:124-129 | `BankAccount.debit` passes the statement descriptor to `Account.debit` as `appears_on_statement_as=`, a keyword `Account.debit` (models.py:330) has no parameter for; `Card.debit` (models.py:177-182) does the same | any call of `BankAccount.debit` or `Card.debit` for a user with a marketplace account: TypeError, no debit | pass it as `statement_descriptor=` | high; not executed | `Mirror.OriginDebitAsWrittenRaises` | `Mirror.OriginDebitFunded` |
| django_balanced/models.py:261 | `not self.card or self.bank_account` reads as `(not card) or bank_account`. Every debit except a card-only one is rejected with "Must have either", and the "Cannot include both" check below it can never fire | a debit with a bank account and no card | reject unless exactly one of card and bank account is set, with "Cannot include both" when both are set | not executed | `Mirror.DebitCleanRejectsBankOnly` | `Mirror.DebitClean` |

=== FILE: admin.dfy ===
/**
 * The admin classes (admin.py): the choice of add form, the bulk payout
 * action that stores the selection in the session, and the two
 * `save_model` hooks that copy an add form's data onto the instance
 * before it is saved.
 */
module Admin {
  import opened Wrappers
  import opened Money
  import opened Resources
  import opened Mirror
  import opened Forms
  import opened Views

  /** The form classes the admin pages use. */
  datatype FormClass = BankAccountAddForm | BankAccountChangeForm | CreditAddForm

  /** One keyword argument of `get_form`: a form class, or any other
      option (fields, exclude, ...), kept opaque. */
  datatype FormOption = FormSetting(form: FormClass) | OtherSetting(text: string)

  /** BalancedAdmin.get_form: the keyword arguments handed on to the
      ModelAdmin. The add form is the default form only on the add page
      (no object yet) of an admin that has one; explicit keyword arguments
      override every default. */
  method GetFormOptions(obj: Option<Fields>, addForm: Option<FormClass>, kwargs: map<string, FormOption>)
    returns (defaults: map<string, FormOption>)
    ensures forall k :: k in kwargs ==> k in defaults && defaults[k] == kwargs[k]
    ensures defaults.Keys == kwargs.Keys + (if obj.None? && addForm.Some? then {"form"} else {})
    ensures "form" !in kwargs && "form" in defaults ==> defaults["form"] == FormSetting(addForm.value)
  {
    defaults := map[];
    if obj.None? && addForm.Some? {
      defaults := defaults["form" := FormSetting(addForm.value)];
    }
    defaults := defaults + kwargs;
  }

  const BulkPayUrl := "admin:bank_account_bulk_pay"

  /** BankAccountAdmin.bulk_pay_action: remember the primary keys of the
      selected bank accounts, in selection order, and go to the bulk
      payout view. */
  method BulkPayAction(s: AdminSession, selected: seq<string>) returns (resp: Response)
    modifies s
    ensures s.session == old(s.session)[BulkPayKey := selected]
    ensures s.credits == old(s.credits)
    ensures resp == Redirect(BulkPayUrl, None)
  {
    s.session := s.session[BulkPayKey := selected];
    resp := Redirect(BulkPayUrl, None);
  }

  /** Selecting bank accounts and opening the bulk payout view shows one
      payout form for each selected account that exists. */
  method SelectThenConfirm(s: AdminSession, selected: seq<string>, escrow: int) returns (resp: Response)
    modifies s
    ensures resp == Render(Queryset(s.bankAccounts, selected), [])
    ensures forall x :: x in resp.initial <==> x in selected && x in s.bankAccounts
    ensures s.session == old(s.session)[BulkPayKey := selected] && s.credits == old(s.credits)
  {
    var _ := BulkPayAction(s, selected);
    resp := s.Dispatch(HttpGet, escrow);
  }

  // ---------------------------------------------------------------------
  // BankAccountAdmin.save_model

  /** The form `save_model` receives: the add form with its cleaned data,
      or the change form. */
  datatype BankAccountForm = BankAccountAdd(data: BankAccountAddData) | BankAccountChange

  /** The instance after `save_model` has copied the add form's data onto
      it: name, account number, routing number and type always, the user
      only when the form names one. The change form copies nothing. */
  function PreparedBankAccount(f: Fields, form: BankAccountForm): (g: Fields)
    ensures form.BankAccountChange? ==> g == f
    ensures form.BankAccountAdd? ==>
      && g.Keys == f.Keys + {"name", "account_number", "routing_number", "type"}
                 + (if form.data.user.Some? then {"user"} else {})
      && g["name"] == Str(form.data.name)
      && g["account_number"] == Str(form.data.accountNumber)
      && g["routing_number"] == Str(form.data.routingNumber)
      && g["type"] == Str(AccountTypeName(form.data.accountType))
      && (form.data.user.Some? ==> g["user"] == Str(form.data.user.value))
      && (forall k :: k in f && k !in {"name", "account_number", "routing_number", "type", "user"} ==> g[k] == f[k])
      && (form.data.user.None? && "user" in f ==> g["user"] == f["user"])
  {
    match form
    case BankAccountChange => f
    case BankAccountAdd(data) =>
      var named := f["name" := Str(data.name)]["account_number" := Str(data.accountNumber)]
        ["routing_number" := Str(data.routingNumber)]["type" := Str(AccountTypeName(data.accountType))];
      if data.user.Some? then named["user" := Str(data.user.value)] else named
  }

  /** BankAccountAdmin.save_model: copy the add form's data, then save. */
  method SaveBankAccountModel(obj: Resource, table: Table, form: BankAccountForm, api: Api) returns (s: Saved)
    requires obj.kind == BankAccountKind
    modifies obj, table
    ensures s == SavedBankAccount(PreparedBankAccount(old(obj.fields), form), api) && obj.fields == s.fields
    ensures table.rows == if s.err.None? then old(table.rows)[UriOf(obj.fields) := obj.fields] else old(table.rows)
  {
    if form.BankAccountAdd? {
      var data := form.data;
      obj.fields := obj.fields["name" := Str(data.name)];
      obj.fields := obj.fields["account_number" := Str(data.accountNumber)];
      obj.fields := obj.fields["routing_number" := Str(data.routingNumber)];
      obj.fields := obj.fields["type" := Str(AccountTypeName(data.accountType))];
      if data.user.Some? {
        obj.fields := obj.fields["user" := Str(data.user.value)];
      }
    }
    s := obj.SaveBankAccount(table, api);
  }

  /** A new bank account entered on the add page is created remotely from
      exactly the four values typed into the form. */
  lemma AddPageCreatesFromForm(f: Fields, data: BankAccountAddData, api: Api)
    requires !HasUri(f)
    ensures SavedBankAccount(PreparedBankAccount(f, BankAccountAdd(data)), api).calls ==
      [CreateBankAccount(Str(data.routingNumber), Str(data.accountNumber), Str(data.name), Str(AccountTypeName(data.accountType)))]
  {
    var g := PreparedBankAccount(f, BankAccountAdd(data));
    assert UriOf(g) == UriOf(f);
  }

  // ---------------------------------------------------------------------
  // CreditAdmin.save_model

  /** The form the credit admin's `save_model` receives. */
  datatype CreditForm = CreditAdd(data: CreditData) | CreditChange

  /** The instance after `save_model` has copied the add form's data onto
      it: the amount as `int(amount * 100)` cents, the bank account, that
      bank account's user and the description. */
  function PreparedCredit(f: Fields, form: CreditForm, bankAccounts: map<string, Fields>): (g: Fields)
    requires form.CreditAdd? ==> form.data.bankAccount in bankAccounts
    ensures form.CreditChange? ==> g == f
    ensures form.CreditAdd? ==>
      && g.Keys == f.Keys + {"amount", "bank_account", "user", "description"}
      && g["amount"] == Int(IntCents(form.data.amount))
      && g["bank_account"] == Str(form.data.bankAccount)
      && g["user"] == Get(bankAccounts[form.data.bankAccount], "user")
      && g["description"] == Str(form.data.description)
      && (forall k :: k in f && k !in {"amount", "bank_account", "user", "description"} ==> g[k] == f[k])
  {
    match form
    case CreditChange => f
    case CreditAdd(data) =>
      f["amount" := Int(IntCents(data.amount))]["bank_account" := Str(data.bankAccount)]
        ["user" := Get(bankAccounts[data.bankAccount], "user")]["description" := Str(data.description)]
  }

  /** CreditAdmin.save_model: copy the add form's data, then save. */
  method SaveCreditModel(obj: Resource, table: Table, form: CreditForm, bankAccounts: map<string, Fields>,
                         links: Links, api: Api) returns (s: Saved)
    requires obj.kind == CreditKind
    requires form.CreditAdd? ==> form.data.bankAccount in bankAccounts
    modifies obj, table
    ensures s == SavedCredit(PreparedCredit(old(obj.fields), form, bankAccounts), links, api) && obj.fields == s.fields
    ensures table.rows == if s.err.None? then old(table.rows)[UriOf(obj.fields) := obj.fields] else old(table.rows)
  {
    if form.CreditAdd? {
      var data := form.data;
      obj.fields := obj.fields["amount" := Int(IntCents(data.amount))];
      obj.fields := obj.fields["bank_account" := Str(data.bankAccount)];
      obj.fields := obj.fields["user" := Get(bankAccounts[data.bankAccount], "user")];
      obj.fields := obj.fields["description" := Str(data.description)];
    }
    s := obj.SaveCredit(table, links, api);
  }

  /** A credit entered on the add page with a valid form fetches the
      chosen bank account and is posted to that account's credits URI for
      the amount in cents. */
  lemma AddPageCreditCreatesFromForm(f: Fields, i: CreditInput, bankAccounts: map<string, Fields>, links: Links, api: Api)
    requires !HasUri(f)
    requires ValidateCreditFields(i, bankAccounts.Keys).Success?
    ensures i.amount.value.places <= 2
    ensures var s := SavedCredit(PreparedCredit(f, CreditAdd(ValidateCreditFields(i, bankAccounts.Keys).value), bankAccounts), links, api);
      var bank := api(Find(BankAccountKind, i.bankAccount));
      && |s.calls| >= 1 && s.calls[0] == Find(BankAccountKind, i.bankAccount)
      && (bank.Ok? && "credits_uri" in bank.obj && bank.obj["credits_uri"].Str? ==>
            s.calls == [s.calls[0], CreateCredit(bank.obj["credits_uri"].s, Int(ToCents(i.amount.value)), Str(i.description),
                                                 Get(f, "statement_descriptor"))])
  {
    var g := PreparedCredit(f, CreditAdd(ValidateCreditFields(i, bankAccounts.Keys).value), bankAccounts);
    assert UriOf(g) == UriOf(f);
    assert Get(g, "statement_descriptor") == Get(f, "statement_descriptor");
  }
}

=== FILE: forms.dfy ===
/**
 * The admin forms (forms.py): the bank-account add form, the single
 * credit form with its escrow check, and the payout form of the bulk
 * payout workflow. Each form's field validation is a function from the
 * submitted values to either the cleaned data or the list of field errors.
 */
module Forms {
  import opened Wrappers
  import opened Money

  /** One error on one field, as the field's validators report it. */
  datatype FieldError =
    | Required(field: string)
    | TooLong(field: string)
    | InvalidChoice(field: string)
    | BelowMinimum(field: string)
    | TooManyDigits(field: string)
    | TooManyPlaces(field: string)
    | TooManyWholeDigits(field: string)

  /** A CharField: an empty value is an error only when the field is
      required; otherwise the length is checked against max_length. */
  function CheckText(field: string, value: string, required: bool, maxLength: Option<nat>): (errs: seq<FieldError>)
    ensures errs == [] <==> (value == "" ==> !required) && (value != "" && maxLength.Some? ==> |value| <= maxLength.value)
  {
    if value == "" then (if required then [Required(field)] else [])
    else if maxLength.Some? && |value| > maxLength.value then [TooLong(field)]
    else []
  }

  /** A choice among existing rows (ModelChoiceField): by primary key. */
  function CheckChoice(field: string, key: string, known: set<string>): (errs: seq<FieldError>)
    ensures errs == [] <==> key != "" && key in known
  {
    if key == "" then [Required(field)]
    else if key !in known then [InvalidChoice(field)]
    else []
  }

  // ---------------------------------------------------------------------
  // BankAccountAddForm

  datatype AccountType = Savings | Checking

  function AccountTypeName(t: AccountType): string {
    match t
    case Savings => "savings"
    case Checking => "checking"
  }

  /** The `type` choice field: exactly the two names "savings" and
      "checking" are accepted. */
  function ParseAccountType(s: string): (r: Option<AccountType>)
    ensures r.Some? <==> s == "savings" || s == "checking"
    ensures r.Some? ==> AccountTypeName(r.value) == s
  {
    if s == "savings" then Some(Savings)
    else if s == "checking" then Some(Checking)
    else None
  }

  lemma AccountTypeRoundTrip(t: AccountType)
    ensures ParseAccountType(AccountTypeName(t)) == Some(t)
  {
  }

  /** The submitted add form; `user` is the key of the chosen user. */
  datatype BankAccountAddInput = BankAccountAddInput(
    name: string, accountNumber: string, routingNumber: string, accountType: string, user: string)

  /** The cleaned data; `user` is None when no user was chosen. */
  datatype BankAccountAddData = BankAccountAddData(
    name: string, accountNumber: string, routingNumber: string, accountType: AccountType, user: Option<string>)

  /** The add form's fields: three required texts of at most 255
      characters, the account type, and the model's `user` foreign key,
      which the model does not mark blank and so is a required choice. */
  function ValidateBankAccountAdd(i: BankAccountAddInput, users: set<string>): (r: Result<BankAccountAddData, seq<FieldError>>)
    ensures r.Success? <==>
      && 0 < |i.name| <= 255 && 0 < |i.accountNumber| <= 255 && 0 < |i.routingNumber| <= 255
      && (i.accountType == "savings" || i.accountType == "checking")
      && i.user != "" && i.user in users
    ensures r.Success? ==>
      && r.value.name == i.name && r.value.accountNumber == i.accountNumber
      && r.value.routingNumber == i.routingNumber && r.value.user == Some(i.user)
      && AccountTypeName(r.value.accountType) == i.accountType
  {
    var typeErrors :=
      if i.accountType == "" then [Required("type")]
      else if ParseAccountType(i.accountType).None? then [InvalidChoice("type")]
      else [];
    var errs := CheckChoice("user", i.user, users)
      + CheckText("name", i.name, true, Some(255))
      + CheckText("account_number", i.accountNumber, true, Some(255))
      + CheckText("routing_number", i.routingNumber, true, Some(255))
      + typeErrors;
    if errs == [] then
      Success(BankAccountAddData(i.name, i.accountNumber, i.routingNumber, ParseAccountType(i.accountType).value, Some(i.user)))
    else
      Failure(errs)
  }

  // ---------------------------------------------------------------------
  // The decimal field checks

  /** The errors of a DecimalField(max_digits, decimal_places): the first
      limit the value breaks, in the order digits, places, whole digits. */
  function CheckDecimal(field: string, d: Decimal, maxDigits: Option<nat>, maxPlaces: nat): (errs: seq<FieldError>)
    requires maxDigits.Some? ==> maxPlaces <= maxDigits.value
    ensures maxDigits.Some? ==> (errs == [] <==> FitsDecimalField(d, maxDigits.value, maxPlaces))
    ensures maxDigits.None? ==> (errs == [] <==> d.places <= maxPlaces)
  {
    if maxDigits.Some? && Digits(d) > maxDigits.value then [TooManyDigits(field)]
    else if d.places > maxPlaces then [TooManyPlaces(field)]
    else if maxDigits.Some? && Digits(d) - d.places > maxDigits.value - maxPlaces then [TooManyWholeDigits(field)]
    else []
  }

  // ---------------------------------------------------------------------
  // CreditAddForm

  datatype CreditInput = CreditInput(amount: Option<Decimal>, description: string, bankAccount: string, statementDescriptor: string)

  datatype CreditData = CreditData(amount: Decimal, description: string, bankAccount: string, statementDescriptor: string)

  /** The single credit form's fields: a required amount with at most 10
      digits and 2 places, an optional description of at most 255
      characters, an existing bank account, and the model's
      `statement_descriptor`, which the model does not mark blank and so
      is required, with at most 12 characters. */
  function ValidateCreditFields(i: CreditInput, bankAccounts: set<string>): (r: Result<CreditData, seq<FieldError>>)
    ensures r.Success? <==>
      && i.amount.Some? && FitsDecimalField(i.amount.value, 10, 2)
      && |i.description| <= 255
      && i.bankAccount != "" && i.bankAccount in bankAccounts
      && 0 < |i.statementDescriptor| <= 12
    ensures r.Success? ==> r.value == CreditData(i.amount.value, i.description, i.bankAccount, i.statementDescriptor)
  {
    var amountErrors := if i.amount.None? then [Required("amount")] else CheckDecimal("amount", i.amount.value, Some(10), 2);
    var errs := CheckText("statement_descriptor", i.statementDescriptor, true, Some(12))
      + amountErrors
      + CheckText("description", i.description, false, Some(255))
      + CheckChoice("bank_account", i.bankAccount, bankAccounts);
    if errs == [] then Success(CreditData(i.amount.value, i.description, i.bankAccount, i.statementDescriptor))
    else Failure(errs)
  }

  /** The errors a form reports: per field, and for the form as a whole. */
  datatype FormErrors = FormErrors(fieldErrors: seq<FieldError>, formErrors: seq<string>)

  const InsufficientTransfer := "You have insufficient funds to cover this transfer."

  /** CreditAddForm.clean: a form whose fields are invalid keeps its field
      errors and the escrow balance is never looked at; otherwise the
      credit is refused iff `int(amount * 100)` exceeds the escrow. */
  function CleanCredit(fields: Result<CreditData, seq<FieldError>>, escrow: int): (r: Result<CreditData, FormErrors>)
    ensures fields.Failure? ==> r == Failure(FormErrors(fields.error, []))
    ensures fields.Success? ==> (r.Success? <==> IntCents(fields.value.amount) <= escrow)
    ensures r.Success? ==> fields.Success? && r.value == fields.value
    ensures fields.Success? && r.Failure? ==> r.error == FormErrors([], [InsufficientTransfer])
  {
    match fields
    case Failure(errs) => Failure(FormErrors(errs, []))
    case Success(data) =>
      if IntCents(data.amount) > escrow then Failure(FormErrors([], [InsufficientTransfer]))
      else Success(data)
  }

  /** The credit form end to end: fields first, then the escrow check. A
      credit of exactly the escrow balance is accepted. */
  lemma CreditFormAccepts(i: CreditInput, bankAccounts: set<string>, escrow: int)
    ensures CleanCredit(ValidateCreditFields(i, bankAccounts), escrow).Success? <==>
      && ValidateCreditFields(i, bankAccounts).Success?
      && ToCents(i.amount.value) <= escrow
  {
  }

  /** An invalid credit form reads no escrow balance: its outcome is the
      same whatever the balance. */
  lemma CreditInvalidIgnoresEscrow(i: CreditInput, bankAccounts: set<string>, escrow1: int, escrow2: int)
    requires ValidateCreditFields(i, bankAccounts).Failure?
    ensures CleanCredit(ValidateCreditFields(i, bankAccounts), escrow1) == CleanCredit(ValidateCreditFields(i, bankAccounts), escrow2)
  {
  }

  // ---------------------------------------------------------------------
  // PayoutForm

  datatype PayoutInput = PayoutInput(bankAccount: string, amount: Option<Decimal>, description: string)

  datatype PayoutData = PayoutData(bankAccount: string, amount: Decimal, description: string)

  /** One payout form of the bulk payout: an existing bank account, an
      amount of at least 0.50 with at most two places, and a description. */
  function ValidatePayout(i: PayoutInput, bankAccounts: set<string>): (r: Result<PayoutData, seq<FieldError>>)
    ensures r.Success? <==>
      && i.bankAccount != "" && i.bankAccount in bankAccounts
      && i.amount.Some? && i.amount.value.places <= 2 && AtLeast(i.amount.value, MinPayout)
      && i.description != ""
    ensures r.Success? ==> r.value == PayoutData(i.bankAccount, i.amount.value, i.description)
  {
    var amountErrors :=
      if i.amount.None? then [Required("amount")]
      else ((if AtLeast(i.amount.value, MinPayout) then [] else [BelowMinimum("amount")])
        + CheckDecimal("amount", i.amount.value, None, 2));
    var errs := CheckChoice("bank_account", i.bankAccount, bankAccounts)
      + amountErrors
      + CheckText("description", i.description, true, None);
    if errs == [] then Success(PayoutData(i.bankAccount, i.amount.value, i.description)) else Failure(errs)
  }

  /** A payout form is valid only for at least 50 cents, and every amount
      of at least 50 cents in at most two places passes the amount field. */
  lemma PayoutAmountInCents(i: PayoutInput, bankAccounts: set<string>)
    requires i.amount.Some? && i.amount.value.places <= 2
    ensures ValidatePayout(i, bankAccounts).Success? <==>
      i.bankAccount != "" && i.bankAccount in bankAccounts && ToCents(i.amount.value) >= 50 && i.description != ""
  {
    AtLeastMinPayoutInCents(i.amount.value);
  }

  /** The credit a saved payout form asks the bank account for. */
  datatype CreditOrder = CreditOrder(bankAccount: string, cents: int, description: string)

  datatype SaveError = AssertionFailed

  /** PayoutForm.save: the form is validated again and must be valid; it
      credits the chosen bank account with the amount times 100, in cents,
      and the description. */
  function SavePayout(i: PayoutInput, bankAccounts: set<string>): (r: Result<CreditOrder, SaveError>)
    ensures ValidatePayout(i, bankAccounts).Failure? <==> r == Failure(AssertionFailed)
    ensures r.Success? ==>
      && r.value.bankAccount == i.bankAccount
      && r.value.description == i.description
      && r.value.cents == ToCents(i.amount.value)
      && r.value.cents >= 50
  {
    match ValidatePayout(i, bankAccounts)
    case Failure(_) => Failure(AssertionFailed)
    case Success(data) =>
      AtLeastMinPayoutInCents(data.amount);
      Success(CreditOrder(data.bankAccount, ToCents(data.amount), data.description))
  }
}

=== FILE: formsets.dfy ===
/**
 * The bulk payout formset (formsets.py): one payout form per selected bank
 * account, no extra blank forms, and an all-or-nothing escrow check over
 * the whole batch.
 */
module Formsets {
  import opened Money
  import opened Forms

  /** formset_factory(..., extra=0) with Django's defaults min_num = 0 and
      max_num = 1000. */
  const Extra: nat := 0
  const MinNum: nat := 0
  const MaxNum: nat := 1000

  /** The number of forms an unbound formset shows for `initialCount`
      initial entries: the larger of the initial count and min_num, plus
      extra, capped at max_num unless the initial entries alone exceed it. */
  function UnboundFormCount(initialCount: nat): (n: nat)
    ensures n == initialCount
  {
    var total := (if initialCount > MinNum then initialCount else MinNum) + Extra;
    if initialCount > MaxNum then initialCount
    else if total > MaxNum then MaxNum
    else total
  }

  const InsufficientFunds := "You have insufficient funds to cover this payout."

  /** `any(self.errors)`: some form of the batch is invalid. */
  predicate AnyErrors(inputs: seq<PayoutInput>, bankAccounts: set<string>) {
    exists x :: x in inputs && ValidatePayout(x, bankAccounts).Failure?
  }

  /** A form's amount times 100, in cents; an invalid form adds nothing
      (the total is only looked at when every form is valid). */
  function FormCents(i: PayoutInput, bankAccounts: set<string>): (c: int)
    ensures c >= 0
  {
    if ValidatePayout(i, bankAccounts).Success? then
      PayoutAmountInCents(i, bankAccounts);
      ToCents(i.amount.value)
    else 0
  }

  /** `sum(amounts) * 100`: every amount has at most two places, so this is
      the sum of the amounts in cents. */
  function TotalCents(inputs: seq<PayoutInput>, bankAccounts: set<string>): (t: int)
    ensures t >= 0
  {
    if inputs == [] then 0
    else
      FormCents(inputs[0], bankAccounts) + TotalCents(inputs[1..], bankAccounts)
  }

  /** BaseBulkPayoutFormSet.clean: the formset-level errors. Nothing is
      checked while any form is invalid; otherwise the batch as a whole is
      refused, with one error, iff its total exceeds the escrow. */
  function Clean(inputs: seq<PayoutInput>, bankAccounts: set<string>, escrow: int): (errors: seq<string>)
    ensures AnyErrors(inputs, bankAccounts) ==> errors == []
    ensures !AnyErrors(inputs, bankAccounts) ==>
      (errors == [] <==> TotalCents(inputs, bankAccounts) <= escrow)
    ensures errors == [] || errors == [InsufficientFunds]
  {
    if AnyErrors(inputs, bankAccounts) then []
    else if TotalCents(inputs, bankAccounts) > escrow then [InsufficientFunds]
    else []
  }

  /** `formset.is_valid()`: every form valid and no formset-level error. */
  function IsValid(inputs: seq<PayoutInput>, bankAccounts: set<string>, escrow: int): (ok: bool)
    ensures ok <==> !AnyErrors(inputs, bankAccounts) && TotalCents(inputs, bankAccounts) <= escrow
  {
    !AnyErrors(inputs, bankAccounts) && Clean(inputs, bankAccounts, escrow) == []
  }

  lemma {:induction false} TotalCentsAppend(a: seq<PayoutInput>, b: seq<PayoutInput>, bankAccounts: set<string>)
    ensures TotalCents(a + b, bankAccounts) == TotalCents(a, bankAccounts) + TotalCents(b, bankAccounts)
  {
    if a != [] {
      assert (a + b)[0] == a[0];
      assert (a + b)[1..] == a[1..] + b;
      TotalCentsAppend(a[1..], b, bankAccounts);
    } else {
      assert a + b == b;
    }
  }

  /** A valid batch pays every form at least 50 cents. */
  lemma {:induction false} TotalCentsAtLeast(inputs: seq<PayoutInput>, bankAccounts: set<string>)
    requires !AnyErrors(inputs, bankAccounts)
    ensures TotalCents(inputs, bankAccounts) >= 50 * |inputs|
  {
    if inputs != [] {
      assert inputs[0] in inputs;
      AtLeastMinPayoutInCents(inputs[0].amount.value);
      assert forall x :: x in inputs[1..] ==> x in inputs;
      TotalCentsAtLeast(inputs[1..], bankAccounts);
    }
  }

  /** Taking one form out of the batch takes exactly its cents out of the
      total. */
  lemma TotalCentsRemove(inputs: seq<PayoutInput>, bankAccounts: set<string>, j: nat)
    requires j < |inputs|
    ensures TotalCents(inputs, bankAccounts) ==
      FormCents(inputs[j], bankAccounts) + TotalCents(inputs[..j] + inputs[j + 1..], bankAccounts)
  {
    assert inputs == inputs[..j] + [inputs[j]] + inputs[j + 1..];
    TotalCentsAppend(inputs[..j] + [inputs[j]], inputs[j + 1..], bankAccounts);
    TotalCentsAppend(inputs[..j], [inputs[j]], bankAccounts);
    TotalCentsAppend(inputs[..j], inputs[j + 1..], bankAccounts);
  }

  /** Taking the same form out of two permutations of each other leaves
      permutations of each other. */
  lemma RemoveMatching(a: seq<PayoutInput>, b: seq<PayoutInput>, j: nat)
    requires multiset(a) == multiset(b) && a != [] && j < |b| && b[j] == a[0]
    ensures multiset(a[1..]) == multiset(b[..j] + b[j + 1..])
  {
    assert b == b[..j] + [b[j]] + b[j + 1..];
    assert a == [a[0]] + a[1..];
    assert multiset(b) == multiset(b[..j]) + multiset{b[j]} + multiset(b[j + 1..]);
    assert multiset(a[1..]) == multiset(a) - multiset{a[0]};
  }

  /** The total depends only on which forms are submitted, not on their
      order. */
  lemma {:induction false} TotalCentsPermutation(a: seq<PayoutInput>, b: seq<PayoutInput>, bankAccounts: set<string>)
    requires multiset(a) == multiset(b)
    ensures TotalCents(a, bankAccounts) == TotalCents(b, bankAccounts)
    decreases |a|
  {
    if a != [] {
      assert a[0] in multiset(b);
      var j :| 0 <= j < |b| && b[j] == a[0];
      var rest := b[..j] + b[j + 1..];
      RemoveMatching(a, b, j);
      TotalCentsPermutation(a[1..], rest, bankAccounts);
      TotalCentsRemove(b, bankAccounts, j);
    } else {
      assert |b| == |multiset(b)| == 0;
    }
  }

  /** Whether some form is invalid does not depend on the order of the
      forms. */
  lemma AnyErrorsPermutation(a: seq<PayoutInput>, b: seq<PayoutInput>, bankAccounts: set<string>)
    requires multiset(a) == multiset(b)
    ensures AnyErrors(a, bankAccounts) <==> AnyErrors(b, bankAccounts)
  {
    forall x | x in a ensures x in b { assert x in multiset(a); }
    forall x | x in b ensures x in a { assert x in multiset(b); }
  }

  /** The formset's verdict does not depend on the order of the forms. */
  lemma CleanPermutation(a: seq<PayoutInput>, b: seq<PayoutInput>, bankAccounts: set<string>, escrow: int)
    requires multiset(a) == multiset(b)
    ensures Clean(a, bankAccounts, escrow) == Clean(b, bankAccounts, escrow)
    ensures IsValid(a, bankAccounts, escrow) <==> IsValid(b, bankAccounts, escrow)
  {
    AnyErrorsPermutation(a, b, bankAccounts);
    TotalCentsPermutation(a, b, bankAccounts);
  }

  /** A batch refused for its total stays refused when a further valid
      form is added: every valid amount is positive. */
  lemma RejectedBatchStaysRejected(inputs: seq<PayoutInput>, x: PayoutInput, bankAccounts: set<string>, escrow: int)
    requires !AnyErrors(inputs, bankAccounts) && Clean(inputs, bankAccounts, escrow) != []
    requires ValidatePayout(x, bankAccounts).Success?
    ensures Clean(inputs + [x], bankAccounts, escrow) == [InsufficientFunds]
  {
    TotalCentsAppend(inputs, [x], bankAccounts);
    AtLeastMinPayoutInCents(x.amount.value);
    assert forall y :: y in inputs + [x] ==> y in inputs || y == x;
  }

  /** One invalid form makes the formset invalid whatever the escrow, and
      the escrow is never compared. */
  lemma InvalidFormSkipsEscrow(inputs: seq<PayoutInput>, bankAccounts: set<string>, k: nat, escrow1: int, escrow2: int)
    requires k < |inputs| && ValidatePayout(inputs[k], bankAccounts).Failure?
    ensures Clean(inputs, bankAccounts, escrow1) == Clean(inputs, bankAccounts, escrow2) == []
    ensures !IsValid(inputs, bankAccounts, escrow1)
  {
    assert inputs[k] in inputs;
  }
}

=== FILE: mirror.dfy ===
/**
 * The local mirror of remote payment resources (models.py): one table per
 * resource kind keyed by the remote URI, the create-or-refresh branch of
 * each kind's save, the deletes, the bulk upsert `sync`, the debit
 * validator and the debit's choice of funding source.
 *
 * Every remote call is a request handed to `api`, a total function that
 * stands for the hosted payments API: its reply is either the resource or
 * the HTTP error that the client raises. A save lists its calls in the
 * order the source makes them and stops at the first one that fails.
 */
module Mirror {
  import opened Wrappers
  import opened Money
  import opened Resources

  datatype Kind = BankAccountKind | CardKind | CreditKind | DebitKind | AccountKind

  /** The names `_meta.get_all_field_names()` lists for each model: the
      columns shared by every resource, the model's own columns and the
      reverse relations other models declare towards it. */
  function Schema(kind: Kind): (names: seq<string>)
    ensures "uri" in names && "id" in names && "created_at" in names
  {
    ["id", "uri", "created_at"] +
    match kind
    case BankAccountKind =>
      ["user", "account_number", "name", "routing_number", "bank_name", "type", "credits", "debits"]
    case CardKind =>
      ["user", "name", "expiration_month", "expiration_year", "last_four", "brand", "debits"]
    case CreditKind =>
      ["user", "bank_account", "amount", "description", "statement_descriptor", "status"]
    case DebitKind =>
      ["user", "amount", "description", "statement_descriptor", "card", "bank_account"]
    case AccountKind =>
      ["user"]
  }

  /** The relation names among a model's fields: its foreign keys and
      the reverse relations other models declare towards it. */
  function Relations(kind: Kind): (r: set<string>)
    ensures "id" !in r && "uri" !in r && "created_at" !in r
  {
    match kind
    case BankAccountKind => {"user", "credits", "debits"}
    case CardKind => {"user", "debits"}
    case CreditKind => {"user", "bank_account"}
    case DebitKind => {"user", "card", "bank_account"}
    case AccountKind => {"user"}
  }

  /** The relation whose column is NOT NULL, if the model has one: the
      user of a card, a debit and an account, and a credit's bank account.
      A bank account's user and a credit's user may be empty. */
  function NonNullRelation(kind: Kind): (r: Option<string>)
    ensures r.Some? ==> r.value in Relations(kind) && r.value in Schema(kind)
    ensures r.None? <==> kind == BankAccountKind
  {
    match kind
    case BankAccountKind => None
    case CreditKind => Some("bank_account")
    case _ => Some("user")
  }

  /** The model's CharFields declared without `null=True`: Django gives
      them "" by default, every other field defaults to None. */
  function TextFields(kind: Kind): seq<string> {
    ["id", "uri"] +
    match kind
    case BankAccountKind => ["account_number", "name", "routing_number", "bank_name", "type"]
    case CardKind => ["name", "last_four", "brand"]
    case CreditKind => ["status"]
    case DebitKind => ["description"]
    case AccountKind => []
  }

  /** A freshly constructed model instance, `cls()`: no URI yet, "" in
      each non-null text column and no related object set. */
  function NewRecord(kind: Kind): (f: Fields)
    ensures !HasUri(f)
    ensures forall n :: n in TextFields(kind) ==> n in f && f[n] == Str("")
    ensures forall n :: n in f ==> n in Schema(kind)
    ensures forall n :: n in f && n !in TextFields(kind) ==> !Linked(f[n])
  {
    map n | n in Schema(kind) :: if n in TextFields(kind) then Str("") else Null
  }

  /** The HTTP error the payments client raises. */
  datatype ApiError = HttpError(status: int)

  /** One call of the payments client. */
  datatype Request =
    | Find(kind: Kind, uri: string)       // `find(uri)`: fetch a resource
    | Update(obj: RemoteObject)           // `save()` of a fetched resource: send it back
    | CreateBankAccount(routingNumber: Value, accountNumber: Value, name: Value, accountType: Value)
    | AddCard(accountUri: string, cardUri: string)
    | CreateCredit(creditsUri: string, amount: Value, description: Value, statementDescriptor: Value)
    | CreateDebit(accountUri: string, amount: Value, description: Value, statementDescriptor: Value, sourceUri: string)
    | CreateAccount(accountName: string)
    | DeleteBankAccount(uri: string)

  datatype Reply = Ok(obj: RemoteObject) | Failed(error: ApiError)

  type Api = Request -> Reply

  datatype Error =
    | Remote(cause: ApiError)          // propagated unchanged
    | DoesNotExist(relation: string)   // a related local row is missing
    | NoCardOnFile                     // `self.user.cards.all()[0]` on no cards
    | MissingRelation(field: string)   // a related object is None
    | MalformedReply(field: string)    // the reply lacks a value the save reads
    | NotImplemented                   // `raise NotImplemented`, which Python turns into a TypeError
    | BadRelation(field: string)       // `_sync` set a plain value on a relation
    | UnexpectedKeywords(names: set<string>)  // keyword arguments the callee has no parameter for
    | MissingArguments(names: set<string>)    // parameters without a default that the call leaves out
    | NotNull(field: string)           // the database refuses a row whose NOT NULL relation is empty

  /** The local rows a save reaches through its relations: the user's
      name, the URI of the user's marketplace account (None when the user
      has none), the URIs of the user's cards in query order and the keys
      of the bank-account table. */
  datatype Links = Links(username: string, accountUri: Option<string>, cardUris: seq<string>, bankAccountUris: set<string>)

  /** What a save leaves behind: the instance's fields, the remote calls it
      made in order, and the error it raised, if any. The row is written
      only when there is no error. */
  datatype Saved = Saved(fields: Fields, calls: seq<Request>, err: Option<Error>)

  /** A related object is present (`if self.card:`): the foreign key holds
      the related row's URI. */
  predicate Linked(v: Value) {
    v.Str?
  }

  /** The calls ran in order and stopped at the first failure: every call
      but the last succeeded, and a remote error was raised exactly when
      the last call failed, and it is that call's error. */
  predicate StopsAtFailure(calls: seq<Request>, err: Option<Error>, api: Api) {
    && (forall k :: 0 <= k < |calls| - 1 ==> api(calls[k]).Ok?)
    && (err.Some? && err.value.Remote? <==> calls != [] && api(calls[|calls| - 1]).Failed?)
    && (calls != [] && api(calls[|calls| - 1]).Failed? ==> err == Some(Remote(api(calls[|calls| - 1]).error)))
  }

  /** The relation at which `_sync(obj)` into a record of `kind` raises,
      if any: the first relation name, in field order, that `obj` gives a
      string, int or datetime. */
  function SyncRefusal(kind: Kind, obj: Fields): (r: Option<string>)
    ensures r.None? <==> forall n :: n in Schema(kind) ==> !Refused(Relations(kind), obj, n)
    ensures r.Some? ==> r.value in Schema(kind) && Refused(Relations(kind), obj, r.value)
  {
    var k := SyncReach(Schema(kind), Relations(kind), obj);
    if k < |Schema(kind)| then Some(Schema(kind)[k]) else None
  }

  /** The record after `_sync(obj)`: every field copied up to the relation
      at which it raised, or all of them. The URI comes before any
      relation, so it is always copied. */
  function SyncedUpTo(kind: Kind, f: Fields, obj: RemoteObject): (g: Fields)
    ensures SyncRefusal(kind, obj).None? ==> g == SyncedFields(Schema(kind), f, obj)
    ensures UriOf(g) == UriOf(obj)
  {
    var names := Schema(kind);
    var k := SyncReach(names, Relations(kind), obj);
    assert !Refused(Relations(kind), obj, names[0]) && !Refused(Relations(kind), obj, names[1]);
    assert names[..k][1] == "uri";
    assert k == |names| ==> names[..k] == names;
    SyncedUri(names[..k], f, obj);
    SyncedFields(names[..k], f, obj)
  }

  /** Both the refusal and the copy are read off how far `_sync` gets. */
  lemma SyncedUpToReach(kind: Kind, f: Fields, obj: RemoteObject, k: nat)
    requires k == SyncReach(Schema(kind), Relations(kind), obj)
    ensures SyncedUpTo(kind, f, obj) == SyncedFields(Schema(kind)[..k], f, obj)
    ensures SyncRefusal(kind, obj) == if k < |Schema(kind)| then Some(Schema(kind)[k]) else None
  {
  }

  /** What writing the row raises: the database's IntegrityError when the
      NOT NULL relation is empty. */
  function WriteError(kind: Kind, f: Fields): (e: Option<Error>)
    ensures e.None? <==> NonNullRelation(kind).None? || Linked(Get(f, NonNullRelation(kind).value))
    ensures e.Some? ==> e == Some(NotNull(NonNullRelation(kind).value))
  {
    var column := NonNullRelation(kind);
    if column.Some? && !Linked(Get(f, column.value)) then Some(NotNull(column.value)) else None
  }

  /** The save ends with `_sync(obj)` into `base` and the write of the
      row: the fields copied up to the relation where `_sync` raised, with
      that raise as the error; or every field, and the write's error. */
  predicate CopiedReply(kind: Kind, base: Fields, obj: RemoteObject, s: Saved) {
    && s.fields == SyncedUpTo(kind, base, obj)
    && (SyncRefusal(kind, obj).Some? ==> s.err == Some(BadRelation(SyncRefusal(kind, obj).value)))
    && (SyncRefusal(kind, obj).None? ==> s.err == WriteError(kind, s.fields))
  }

  /** The last call of a save succeeded. */
  predicate LastOk(calls: seq<Request>, api: Api) {
    calls != [] && api(calls[|calls| - 1]).Ok?
  }

  /** The instance after one more call: a failed call raises its error and
      leaves the fields alone, a reply is copied in with `_sync`, which
      raises at a relation given a plain value, and the row is written. */
  function Refreshed(kind: Kind, f: Fields, req: Request, reply: Reply, before: seq<Request>): (s: Saved)
    ensures s.calls == before + [req]
    ensures reply.Failed? ==> s.fields == f && s.err == Some(Remote(reply.error))
    ensures reply.Ok? ==> CopiedReply(kind, f, reply.obj, s) && UriOf(s.fields) == UriOf(reply.obj)
    ensures reply.Ok? && s.err.None? ==> s.fields == SyncedFields(Schema(kind), f, reply.obj)
  {
    match reply
    case Failed(e) => Saved(f, before + [req], Some(Remote(e)))
    case Ok(obj) =>
      var refused := SyncRefusal(kind, obj);
      var synced := SyncedUpTo(kind, f, obj);
      Saved(synced, before + [req], if refused.Some? then Some(BadRelation(refused.value)) else WriteError(kind, synced))
  }

  /** BankAccount.save: without a URI, create the account from its four
      creation fields; with one, fetch it and send it back. The reply of
      the last call is copied in. */
  function SavedBankAccount(f: Fields, api: Api): (s: Saved)
    ensures StopsAtFailure(s.calls, s.err, api)
    ensures s.err.None? || s.err.value.Remote? || s.err.value.BadRelation?
    ensures !HasUri(f) ==>
      s.calls == [CreateBankAccount(Get(f, "routing_number"), Get(f, "account_number"), Get(f, "name"), Get(f, "type"))]
    ensures HasUri(f) ==>
      && 1 <= |s.calls| && s.calls[0] == Find(BankAccountKind, UriOf(f))
      && (api(s.calls[0]).Ok? ==> s.calls == [s.calls[0], Update(api(s.calls[0]).obj)])
    ensures !LastOk(s.calls, api) ==> s.fields == f
    ensures LastOk(s.calls, api) ==> CopiedReply(BankAccountKind, f, api(s.calls[|s.calls| - 1]).obj, s)
    ensures s.err.None? ==> s.calls != [] && s.fields == SyncedFields(Schema(BankAccountKind), f, api(s.calls[|s.calls| - 1]).obj)
  {
    if !HasUri(f) then
      var req := CreateBankAccount(Get(f, "routing_number"), Get(f, "account_number"), Get(f, "name"), Get(f, "type"));
      Refreshed(BankAccountKind, f, req, api(req), [])
    else
      var find := Find(BankAccountKind, UriOf(f));
      match api(find)
      case Failed(e) => Saved(f, [find], Some(Remote(e)))
      case Ok(obj) => Refreshed(BankAccountKind, f, Update(obj), api(Update(obj)), [find])
  }

  /** Card.save: a card cannot be created from what is stored locally, so
      without a URI the user's account is fetched, the card token
      `cardUri` is attached to it and becomes the URI; the card is then
      fetched by URI and copied in. */
  function SavedCard(f: Fields, cardUri: string, links: Links, api: Api): (s: Saved)
    ensures StopsAtFailure(s.calls, s.err, api)
    ensures s.err.None? || s.err.value.Remote? || s.err.value.BadRelation? || s.err == Some(NotNull("user"))
      || s.err == Some(DoesNotExist("balanced_account"))
    ensures HasUri(f) ==> s.calls == [Find(CardKind, UriOf(f))]
    ensures !HasUri(f) && links.accountUri.None? ==> s == Saved(f, [], Some(DoesNotExist("balanced_account")))
    ensures !HasUri(f) && links.accountUri.Some? ==>
      && 1 <= |s.calls| <= 3 && s.calls[0] == Find(AccountKind, links.accountUri.value)
      && (api(s.calls[0]).Ok? ==>
            && |s.calls| >= 2 && s.calls[1] == AddCard(UriOf(api(s.calls[0]).obj), cardUri)
            && (api(s.calls[1]).Ok? ==> s.calls == [s.calls[0], s.calls[1], Find(CardKind, cardUri)]))
    ensures !LastOk(s.calls, api) ==> s.fields == if |s.calls| == 3 then f["uri" := Str(cardUri)] else f
    ensures LastOk(s.calls, api) ==>
      CopiedReply(CardKind, if HasUri(f) then f else f["uri" := Str(cardUri)], api(s.calls[|s.calls| - 1]).obj, s)
    ensures s.err.None? ==>
      (s.calls != [] && s.fields == SyncedFields(Schema(CardKind), if HasUri(f) then f else f["uri" := Str(cardUri)], api(s.calls[|s.calls| - 1]).obj))
  {
    if HasUri(f) then
      var find := Find(CardKind, UriOf(f));
      Refreshed(CardKind, f, find, api(find), [])
    else if links.accountUri.None? then
      Saved(f, [], Some(DoesNotExist("balanced_account")))
    else
      var fetch := Find(AccountKind, links.accountUri.value);
      match api(fetch)
      case Failed(e) => Saved(f, [fetch], Some(Remote(e)))
      case Ok(account) =>
        var add := AddCard(UriOf(account), cardUri);
        match api(add)
        case Failed(e) => Saved(f, [fetch, add], Some(Remote(e)))
        case Ok(_) =>
          var find := Find(CardKind, cardUri);
          Refreshed(CardKind, f["uri" := Str(cardUri)], find, api(find), [fetch, add])
  }

  /** What Credit.save stores once the credit's reply `obj` is in: the
      reply copied in with `_sync`, which raises at a relation given a
      plain value; then the amount replaced by the reply's cents as a
      two-place decimal, and the bank account already set or, when none
      is, the local row the reply names. A reply without integer cents, or
      without a bank account when one is needed, or naming one that has no
      local row, raises. */
  ghost predicate CreditStored(f: Fields, obj: RemoteObject, links: Links, s: Saved) {
    var synced := SyncedFields(Schema(CreditKind), f, obj);
    && (SyncRefusal(CreditKind, obj).Some? ==> CopiedReply(CreditKind, f, obj, s))
    && (SyncRefusal(CreditKind, obj).None? ==>
      && (forall k :: k != "amount" && k != "bank_account" ==>
            (k in s.fields <==> k in synced) && (k in synced ==> s.fields[k] == synced[k]))
      && (!("amount" in obj && obj["amount"].Int?) ==> s.fields == synced && s.err == Some(MalformedReply("amount")))
      && ("amount" in obj && obj["amount"].Int? ==>
          && Get(s.fields, "amount") == Dec(FromCents(obj["amount"].i))
          && (Linked(Get(f, "bank_account")) ==>
                s.err.None? && Get(s.fields, "bank_account") == Get(f, "bank_account"))
          && (!Linked(Get(f, "bank_account")) ==>
                && (s.err.None? <==> "bank_account" in obj && obj["bank_account"].Ref? && obj["bank_account"].uri in links.bankAccountUris)
                && (s.err.None? ==> Get(s.fields, "bank_account") == Str(obj["bank_account"].uri))
                && (s.err.Some? ==> s.err == Some(if "bank_account" in obj && obj["bank_account"].Ref?
                                                  then DoesNotExist("bank_account") else MalformedReply("bank_account"))))))
  }

  /** The stored credit after the reply has been copied: the amount comes
      back in cents and is stored divided by 100, and a credit without a
      bank account takes the one the reply names. */
  function CreditAfterReply(f: Fields, obj: RemoteObject, links: Links, calls: seq<Request>): (s: Saved)
    ensures s.calls == calls
    ensures CreditStored(f, obj, links, s)
  {
    var refused := SyncRefusal(CreditKind, obj);
    var synced := SyncedUpTo(CreditKind, f, obj);
    if refused.Some? then Saved(synced, calls, Some(BadRelation(refused.value)))
    else
    SyncKeepsRelation(Schema(CreditKind), Relations(CreditKind), f, obj, "bank_account");
    if !("amount" in obj && obj["amount"].Int?) then
      Saved(synced, calls, Some(MalformedReply("amount")))
    else
      var withAmount := synced["amount" := Dec(FromCents(obj["amount"].i))];
      if Linked(Get(withAmount, "bank_account")) then
        Saved(withAmount, calls, None)
      else if !("bank_account" in obj && obj["bank_account"].Ref?) then
        Saved(withAmount, calls, Some(MalformedReply("bank_account")))
      else if obj["bank_account"].uri !in links.bankAccountUris then
        Saved(withAmount, calls, Some(DoesNotExist("bank_account")))
      else
        Saved(withAmount["bank_account" := Str(obj["bank_account"].uri)], calls, None)
  }

  /** Credit.save: without a URI, fetch the bank account and post the
      credit to its credits URI; with one, fetch the credit. Then store the
      reply as `CreditStored` says. */
  function SavedCredit(f: Fields, links: Links, api: Api): (s: Saved)
    ensures StopsAtFailure(s.calls, s.err, api)
    ensures HasUri(f) ==> s.calls == [Find(CreditKind, UriOf(f))]
    ensures !HasUri(f) && !Linked(Get(f, "bank_account")) ==> s == Saved(f, [], Some(MissingRelation("bank_account")))
    ensures !HasUri(f) && Linked(Get(f, "bank_account")) ==>
      && 1 <= |s.calls| <= 2 && s.calls[0] == Find(BankAccountKind, Get(f, "bank_account").s)
      && (api(s.calls[0]).Ok? ==>
            var bank := api(s.calls[0]).obj;
            if "credits_uri" in bank && bank["credits_uri"].Str? then
              s.calls == [s.calls[0], CreateCredit(bank["credits_uri"].s, Get(f, "amount"), Get(f, "description"), Get(f, "statement_descriptor"))]
            else
              s == Saved(f, [s.calls[0]], Some(MalformedReply("credits_uri"))))
    ensures s.calls != [] && api(s.calls[|s.calls| - 1]).Ok? && (HasUri(f) || |s.calls| == 2) ==>
      CreditStored(f, api(s.calls[|s.calls| - 1]).obj, links, s)
    ensures s.calls != [] && api(s.calls[|s.calls| - 1]).Failed? ==> s.fields == f
    ensures s.err.None? ==> Linked(Get(s.fields, "bank_account")) && WriteError(CreditKind, s.fields).None?
  {
    if HasUri(f) then
      var find := Find(CreditKind, UriOf(f));
      match api(find)
      case Failed(e) => Saved(f, [find], Some(Remote(e)))
      case Ok(obj) => CreditAfterReply(f, obj, links, [find])
    else if !Linked(Get(f, "bank_account")) then
      Saved(f, [], Some(MissingRelation("bank_account")))
    else
      var fetch := Find(BankAccountKind, Get(f, "bank_account").s);
      match api(fetch)
      case Failed(e) => Saved(f, [fetch], Some(Remote(e)))
      case Ok(bank) =>
        if !("credits_uri" in bank && bank["credits_uri"].Str?) then
          Saved(f, [fetch], Some(MalformedReply("credits_uri")))
        else
          var post := CreateCredit(bank["credits_uri"].s, Get(f, "amount"), Get(f, "description"), Get(f, "statement_descriptor"));
          match api(post)
          case Failed(e) => Saved(f, [fetch, post], Some(Remote(e)))
          case Ok(obj) => CreditAfterReply(f, obj, links, [fetch, post])
  }

  /** A new credit that is stored is linked to the bank account it was
      posted under. */
  lemma NewCreditKeepsBankAccount(f: Fields, links: Links, api: Api)
    requires !HasUri(f) && SavedCredit(f, links, api).err.None?
    ensures var s := SavedCredit(f, links, api);
      && Get(s.fields, "bank_account") == Get(f, "bank_account")
      && s.calls[0] == Find(BankAccountKind, Get(f, "bank_account").s)
  {
    var s := SavedCredit(f, links, api);
    assert Linked(Get(f, "bank_account"));
    assert api(s.calls[0]).Ok? && |s.calls| == 2;
    var obj := api(s.calls[1]).obj;
    assert CreditStored(f, obj, links, s);
  }

  /** The debit's funding source: the card, else the bank account, else
      the user's first card; None where the source raises IndexError. */
  function DebitSource(card: Value, bankAccount: Value, userCards: seq<string>): (r: Option<string>)
    ensures r.None? <==> !Linked(card) && !Linked(bankAccount) && userCards == []
    ensures Linked(card) ==> r == Some(card.s)
    ensures !Linked(card) && Linked(bankAccount) ==> r == Some(bankAccount.s)
    ensures !Linked(card) && !Linked(bankAccount) && userCards != [] ==> r == Some(userCards[0])
  {
    if Linked(card) then Some(card.s)
    else if Linked(bankAccount) then Some(bankAccount.s)
    else if userCards != [] then Some(userCards[0])
    else None
  }

  /** Debit.save: without a URI, fetch the user's account, pick the
      source, debit the account and send the debit back; with a URI, fetch
      the debit. The reply of the last call is copied in. */
  function SavedDebit(f: Fields, links: Links, api: Api): (s: Saved)
    ensures StopsAtFailure(s.calls, s.err, api)
    ensures HasUri(f) ==> s.calls == [Find(DebitKind, UriOf(f))]
    ensures !HasUri(f) && links.accountUri.None? ==> s == Saved(f, [], Some(DoesNotExist("balanced_account")))
    ensures !HasUri(f) && links.accountUri.Some? ==>
      && 1 <= |s.calls| <= 3 && s.calls[0] == Find(AccountKind, links.accountUri.value)
      && (api(s.calls[0]).Ok? ==>
            var source := DebitSource(Get(f, "card"), Get(f, "bank_account"), links.cardUris);
            if source.None? then s == Saved(f, [s.calls[0]], Some(NoCardOnFile))
            else
              && |s.calls| >= 2
              && s.calls[1] == CreateDebit(UriOf(api(s.calls[0]).obj), Get(f, "amount"), Get(f, "description"),
                                           Get(f, "statement_descriptor"), source.value)
              && (api(s.calls[1]).Ok? ==> s.calls == [s.calls[0], s.calls[1], Update(api(s.calls[1]).obj)]))
    ensures !LastOk(s.calls, api) || s.err == Some(NoCardOnFile) ==> s.fields == f
    ensures LastOk(s.calls, api) && s.err != Some(NoCardOnFile) ==> CopiedReply(DebitKind, f, api(s.calls[|s.calls| - 1]).obj, s)
    ensures s.err.None? ==> s.calls != [] && s.fields == SyncedFields(Schema(DebitKind), f, api(s.calls[|s.calls| - 1]).obj)
  {
    if HasUri(f) then
      var find := Find(DebitKind, UriOf(f));
      Refreshed(DebitKind, f, find, api(find), [])
    else if links.accountUri.None? then
      Saved(f, [], Some(DoesNotExist("balanced_account")))
    else
      var fetch := Find(AccountKind, links.accountUri.value);
      match api(fetch)
      case Failed(e) => Saved(f, [fetch], Some(Remote(e)))
      case Ok(account) =>
        var source := DebitSource(Get(f, "card"), Get(f, "bank_account"), links.cardUris);
        if source.None? then
          Saved(f, [fetch], Some(NoCardOnFile))
        else
          var create := CreateDebit(UriOf(account), Get(f, "amount"), Get(f, "description"),
                                    Get(f, "statement_descriptor"), source.value);
          match api(create)
          case Failed(e) => Saved(f, [fetch, create], Some(Remote(e)))
          case Ok(debit) => Refreshed(DebitKind, f, Update(debit), api(Update(debit)), [fetch, create])
  }

  /** Account.save: create the marketplace account under the user's name
      when there is no URI; with a URI nothing remote happens. The row is
      then written. */
  function SavedAccount(f: Fields, links: Links, api: Api): (s: Saved)
    ensures StopsAtFailure(s.calls, s.err, api)
    ensures HasUri(f) ==> s.calls == [] && s.fields == f
    ensures HasUri(f) ==> (s.err.None? <==> Linked(Get(f, "user")))
    ensures HasUri(f) && s.err.Some? ==> s.err == Some(NotNull("user"))
    ensures !HasUri(f) ==> s.calls == [CreateAccount(links.username)]
    ensures !LastOk(s.calls, api) ==> s.fields == f
    ensures LastOk(s.calls, api) ==> CopiedReply(AccountKind, f, api(CreateAccount(links.username)).obj, s)
    ensures !HasUri(f) && s.err.None? ==>
      api(CreateAccount(links.username)).Ok? && s.fields == SyncedFields(Schema(AccountKind), f, api(CreateAccount(links.username)).obj)
  {
    if HasUri(f) then Saved(f, [], WriteError(AccountKind, f))
    else
      var req := CreateAccount(links.username);
      Refreshed(AccountKind, f, req, api(req), [])
  }

  /** The save of any kind, as `instance.save()` runs it (a card without
      a token gets `card_uri=None`, here ""). */
  function SavedAs(kind: Kind, f: Fields, cardUri: string, links: Links, api: Api): (s: Saved)
    ensures StopsAtFailure(s.calls, s.err, api)
  {
    match kind
    case BankAccountKind => SavedBankAccount(f, api)
    case CardKind => SavedCard(f, cardUri, links, api)
    case CreditKind => SavedCredit(f, links, api)
    case DebitKind => SavedDebit(f, links, api)
    case AccountKind => SavedAccount(f, links, api)
  }

  /** A fetched card with `is_valid` set to False. */
  function Invalidated(card: RemoteObject): (r: RemoteObject)
    ensures "is_valid" in r && r["is_valid"] == Bool(false) && UriOf(r) == UriOf(card)
  {
    card["is_valid" := Bool(false)]
  }

  /** The remote calls and outcome of `delete`: a bank account is fetched
      and deleted remotely, a card is fetched and sent back marked
      invalid, and the other three kinds always raise. */
  function DeleteOutcome(kind: Kind, f: Fields, api: Api): (r: (seq<Request>, Option<Error>))
    ensures kind in {CreditKind, DebitKind, AccountKind} ==> r == ([], Some(NotImplemented))
    ensures kind in {BankAccountKind, CardKind} ==>
      && StopsAtFailure(r.0, r.1, api) && (r.1.None? || r.1.value.Remote?)
      && 1 <= |r.0| && r.0[0] == Find(kind, UriOf(f))
      && (api(r.0[0]).Ok? ==>
            r.0 == [r.0[0], if kind == BankAccountKind then DeleteBankAccount(UriOf(api(r.0[0]).obj))
                            else Update(Invalidated(api(r.0[0]).obj))])
  {
    match kind
    case BankAccountKind | CardKind =>
      var find := Find(kind, UriOf(f));
      (match api(find)
       case Failed(e) => ([find], Some(Remote(e)))
       case Ok(obj) =>
         var req := if kind == BankAccountKind then DeleteBankAccount(UriOf(obj)) else Update(Invalidated(obj));
         if api(req).Failed? then ([find, req], Some(Remote(api(req).error))) else ([find, req], None))
    case _ => ([], Some(NotImplemented))
  }

  /** The row a remote resource is copied onto: the existing row with its
      URI, or a new instance. */
  function Lookup<V>(rows: map<string, V>, uri: string): Option<V> {
    if uri in rows then Some(rows[uri]) else None
  }

  /** The instance `sync` saves for a remote resource: `_sync` of it over
      the existing row or a new instance. */
  function Upserted(kind: Kind, existing: Option<Fields>, r: RemoteObject): (f: Fields)
    ensures UriOf(f) == UriOf(r) && HasUri(f)
  {
    var base := if existing.Some? then existing.value else NewRecord(kind);
    SyncedUri(Schema(kind), base, r);
    SyncedFields(Schema(kind), base, r)
  }

  /** Upsert every resource of a query by URI, in order, writing for each
      the row `write` computes from the row already there. */
  function UpsertAll<V>(rows: map<string, V>, query: seq<RemoteObject>, write: (Option<V>, RemoteObject) -> V): map<string, V>
    decreases |query|
  {
    if query == [] then rows
    else
      var mid := UpsertAll(rows, query[..|query| - 1], write);
      var r := query[|query| - 1];
      mid[UriOf(r) := write(Lookup(mid, UriOf(r)), r)]
  }

  function Uris(query: seq<RemoteObject>): set<string> {
    set i | 0 <= i < |query| :: UriOf(query[i])
  }

  /** The URIs of a query are those of all but its last resource, plus
      the last one's. */
  lemma UrisSnoc(query: seq<RemoteObject>)
    requires query != []
    ensures Uris(query) == Uris(query[..|query| - 1]) + {UriOf(query[|query| - 1])}
  {
    var init := query[..|query| - 1];
    forall u | u in Uris(query) ensures u in Uris(init) + {UriOf(query[|query| - 1])} {
      var i :| 0 <= i < |query| && UriOf(query[i]) == u;
      if i < |query| - 1 { assert init[i] == query[i]; }
    }
    forall u | u in Uris(init) ensures u in Uris(query) {
      var i :| 0 <= i < |init| && UriOf(init[i]) == u;
      assert query[i] == init[i];
    }
  }

  lemma {:induction false} UpsertAllKeys<V>(rows: map<string, V>, query: seq<RemoteObject>, write: (Option<V>, RemoteObject) -> V)
    ensures UpsertAll(rows, query, write).Keys == rows.Keys + Uris(query)
    decreases |query|
  {
    if query != [] {
      UpsertAllKeys(rows, query[..|query| - 1], write);
      UrisSnoc(query);
    }
  }

  lemma {:induction false} UpsertAllUntouched<V>(rows: map<string, V>, query: seq<RemoteObject>, write: (Option<V>, RemoteObject) -> V, u: string)
    requires u !in Uris(query)
    ensures Lookup(UpsertAll(rows, query, write), u) == Lookup(rows, u)
    decreases |query|
  {
    if query != [] {
      UrisSnoc(query);
      UpsertAllUntouched(rows, query[..|query| - 1], write, u);
    }
  }

  lemma {:induction false} UpsertAllContents<V>(rows: map<string, V>, query: seq<RemoteObject>, write: (Option<V>, RemoteObject) -> V, i: nat)
    requires forall i, j :: 0 <= i < j < |query| ==> UriOf(query[i]) != UriOf(query[j])
    requires i < |query|
    ensures Lookup(UpsertAll(rows, query, write), UriOf(query[i])) == Some(write(Lookup(rows, UriOf(query[i])), query[i]))
    decreases |query|
  {
    var n := |query| - 1;
    var init := query[..n];
    if i < n {
      assert query[i] == init[i];
      assert forall a, b :: 0 <= a < b < |init| ==> UriOf(init[a]) != UriOf(init[b]) by {
        forall a, b | 0 <= a < b < |init| ensures UriOf(init[a]) != UriOf(init[b]) {
          assert init[a] == query[a] && init[b] == query[b];
        }
      }
      UpsertAllContents(rows, init, write, i);
      assert UriOf(query[i]) != UriOf(query[n]);
    } else {
      assert UriOf(query[n]) !in Uris(init);
      UpsertAllUntouched(rows, init, write, UriOf(query[n]));
    }
  }

  // ---------------------------------------------------------------------
  // The classmethod `sync`

  /** The save `sync` runs for the remote resource `r` over the row
      already stored under its URI: `_sync`, then the kind's `save()`. */
  function SyncSaved(kind: Kind, existing: Option<Fields>, r: RemoteObject, links: Links, api: Api): (s: Saved)
    ensures StopsAtFailure(s.calls, s.err, api)
  {
    SavedAs(kind, Upserted(kind, existing, r), "", links, api)
  }

  /** The row `sync` writes for a resource, as a function of the row
      already there. */
  function SyncWrite(kind: Kind, links: Links, api: Api): (Option<Fields>, RemoteObject) -> Fields {
    (e: Option<Fields>, r: RemoteObject) => SyncSaved(kind, e, r, links, api).fields
  }

  /** The table `sync` leaves, and the error that stopped it, if any. */
  datatype SyncOutcome = SyncOutcome(rows: map<string, Fields>, err: Option<Error>)

  /** One resource of `sync`: a `_sync` or a save that raises stops the
      loop with the table as it was; otherwise its row is written under
      its URI. */
  function SyncStep(kind: Kind, rows: map<string, Fields>, r: RemoteObject, links: Links, api: Api): (o: SyncOutcome)
    ensures o.err.Some? ==> o.rows == rows
    ensures SyncRefusal(kind, r).Some? ==> o.err == Some(BadRelation(SyncRefusal(kind, r).value))
  {
    var refused := SyncRefusal(kind, r);
    if refused.Some? then SyncOutcome(rows, Some(BadRelation(refused.value)))
    else
      var s := SyncSaved(kind, Lookup(rows, UriOf(r)), r, links, api);
      if s.err.Some? then SyncOutcome(rows, s.err) else SyncOutcome(rows[UriOf(s.fields) := s.fields], None)
  }

  /** The classmethod `sync` over the query, resource by resource, until a
      save raises. Rows are written or overwritten, never removed. */
  function SyncRun(kind: Kind, rows: map<string, Fields>, query: seq<RemoteObject>, links: Links, api: Api): (o: SyncOutcome)
    ensures rows.Keys <= o.rows.Keys
    decreases |query|
  {
    if query == [] then SyncOutcome(rows, None)
    else
      var mid := SyncRun(kind, rows, query[..|query| - 1], links, api);
      if mid.err.Some? then mid else SyncStep(kind, mid.rows, query[|query| - 1], links, api)
  }

  /** A `sync` that has raised nothing so far goes on with the next
      resource. */
  lemma SyncRunSnoc(kind: Kind, rows: map<string, Fields>, query: seq<RemoteObject>, links: Links, api: Api)
    requires query != [] && SyncRun(kind, rows, query[..|query| - 1], links, api).err.None?
    ensures SyncRun(kind, rows, query, links, api) ==
      SyncStep(kind, SyncRun(kind, rows, query[..|query| - 1], links, api).rows, query[|query| - 1], links, api)
  {
  }

  /** A `sync` that has raised stays as it was. */
  lemma SyncRunHalted(kind: Kind, rows: map<string, Fields>, query: seq<RemoteObject>, links: Links, api: Api)
    requires query != [] && SyncRun(kind, rows, query[..|query| - 1], links, api).err.Some?
    ensures SyncRun(kind, rows, query, links, api) == SyncRun(kind, rows, query[..|query| - 1], links, api)
  {
  }

  /** `sync` stops at the first save that raises: the rows written for the
      resources before it stay, and no later resource is visited. */
  lemma {:induction false} SyncRunStops(kind: Kind, rows: map<string, Fields>, query: seq<RemoteObject>, links: Links, api: Api, j: nat)
    requires j < |query|
    requires SyncRun(kind, rows, query[..j], links, api).err.None?
    requires SyncStep(kind, SyncRun(kind, rows, query[..j], links, api).rows, query[j], links, api).err.Some?
    ensures SyncRun(kind, rows, query, links, api) ==
      SyncStep(kind, SyncRun(kind, rows, query[..j], links, api).rows, query[j], links, api)
    decreases |query|
  {
    var init := query[..|query| - 1];
    var before := SyncRun(kind, rows, query[..j], links, api);
    var stop := SyncStep(kind, before.rows, query[j], links, api);
    if j == |query| - 1 {
      assert init == query[..j] && query[|query| - 1] == query[j];
      SyncRunSnoc(kind, rows, query, links, api);
    } else {
      assert init[..j] == query[..j] && init[j] == query[j];
      SyncRunStops(kind, rows, init, links, api, j);
      SyncRunHalted(kind, rows, query, links, api);
    }
  }

  /** The payments API answers a fetch with the resource at the URI asked
      for, and a resource sent back keeps its URI. */
  ghost predicate KeepsUris(api: Api) {
    && (forall kind, uri :: api(Find(kind, uri)).Ok? ==> UriOf(api(Find(kind, uri)).obj) == uri)
    && (forall obj: RemoteObject :: api(Update(obj)).Ok? ==> UriOf(api(Update(obj)).obj) == UriOf(obj))
  }

  /** A save of a record that has a URI keeps that URI, so its row is
      written under the key it was read from. */
  lemma SavedKeepsUri(kind: Kind, f: Fields, cardUri: string, links: Links, api: Api)
    requires HasUri(f) && KeepsUris(api)
    requires SavedAs(kind, f, cardUri, links, api).err.None?
    ensures UriOf(SavedAs(kind, f, cardUri, links, api).fields) == UriOf(f)
  {
    var s := SavedAs(kind, f, cardUri, links, api);
    if kind != AccountKind {
      var obj := api(s.calls[|s.calls| - 1]).obj;
      assert UriOf(obj) == UriOf(f) by {
        if kind == BankAccountKind {
          assert UriOf(api(s.calls[0]).obj) == UriOf(f);
        }
      }
      SyncedFieldAt(Schema(kind), f, obj, "uri");
      if kind == CreditKind {
        assert CreditStored(f, obj, links, s);
        var synced := SyncedFields(Schema(CreditKind), f, obj);
        assert "uri" in s.fields <==> "uri" in synced;
      }
    }
  }

  /** A save of a resource that raises nothing writes its row under the
      resource's own URI. */
  lemma SyncStepWrites(kind: Kind, rows: map<string, Fields>, r: RemoteObject, links: Links, api: Api)
    requires KeepsUris(api) && SyncStep(kind, rows, r, links, api).err.None?
    ensures SyncStep(kind, rows, r, links, api).rows == rows[UriOf(r) := SyncSaved(kind, Lookup(rows, UriOf(r)), r, links, api).fields]
  {
    SavedKeepsUri(kind, Upserted(kind, Lookup(rows, UriOf(r)), r), "", links, api);
  }

  /** A `sync` that raises nothing is the upsert by URI of every resource,
      each row being what its save stored. */
  lemma {:induction false} SyncRunUpserts(kind: Kind, rows: map<string, Fields>, query: seq<RemoteObject>, links: Links, api: Api)
    requires KeepsUris(api)
    requires SyncRun(kind, rows, query, links, api).err.None?
    ensures SyncRun(kind, rows, query, links, api).rows ==
      UpsertAll(rows, query, SyncWrite(kind, links, api))
    decreases |query|
  {
    if query != [] {
      var init := query[..|query| - 1];
      var r := query[|query| - 1];
      SyncRunUpserts(kind, rows, init, links, api);
      var mid := SyncRun(kind, rows, init, links, api);
      SyncStepWrites(kind, mid.rows, r, links, api);
    }
  }

  /** After a `sync` that raises nothing the table holds exactly the rows
      it held plus one row per remote URI, never two. */
  lemma SyncAllKeys(kind: Kind, rows: map<string, Fields>, query: seq<RemoteObject>, links: Links, api: Api)
    requires KeepsUris(api)
    ensures SyncRun(kind, rows, query, links, api).err.None? ==>
      SyncRun(kind, rows, query, links, api).rows.Keys == rows.Keys + Uris(query)
  {
    if SyncRun(kind, rows, query, links, api).err.None? {
      SyncRunUpserts(kind, rows, query, links, api);
      UpsertAllKeys(rows, query, SyncWrite(kind, links, api));
    }
  }

  /** A row whose URI no remote resource has is left as it was, and
      `sync` creates no row under it. */
  lemma SyncAllUntouched(kind: Kind, rows: map<string, Fields>, query: seq<RemoteObject>, links: Links, api: Api, u: string)
    requires KeepsUris(api) && u !in Uris(query)
    ensures SyncRun(kind, rows, query, links, api).err.None? ==>
      && (u in SyncRun(kind, rows, query, links, api).rows <==> u in rows)
      && (u in rows ==> SyncRun(kind, rows, query, links, api).rows[u] == rows[u])
  {
    if SyncRun(kind, rows, query, links, api).err.None? {
      SyncRunUpserts(kind, rows, query, links, api);
      UpsertAllUntouched(rows, query, SyncWrite(kind, links, api), u);
    }
  }

  /** When the query lists each URI once and `sync` raises nothing, every
      remote resource's row is what its save stored, starting from the
      existing row or a new instance. */
  lemma SyncAllContents(kind: Kind, rows: map<string, Fields>, query: seq<RemoteObject>, links: Links, api: Api, i: nat)
    requires KeepsUris(api)
    requires forall i, j :: 0 <= i < j < |query| ==> UriOf(query[i]) != UriOf(query[j])
    requires i < |query|
    ensures SyncRun(kind, rows, query, links, api).err.None? ==>
      && UriOf(query[i]) in SyncRun(kind, rows, query, links, api).rows
      && SyncRun(kind, rows, query, links, api).rows[UriOf(query[i])] ==
           SyncSaved(kind, Lookup(rows, UriOf(query[i])), query[i], links, api).fields
  {
    if SyncRun(kind, rows, query, links, api).err.None? {
      var write := SyncWrite(kind, links, api);
      var u := UriOf(query[i]);
      SyncRunUpserts(kind, rows, query, links, api);
      UpsertAllContents(rows, query, write, i);
      assert write(Lookup(rows, u), query[i]) == SyncSaved(kind, Lookup(rows, u), query[i], links, api).fields;
    }
  }

  /** The save `sync` runs for a remote credit fetches it again and
      stores its amount in currency units, not the cents `_sync` copied. */
  lemma SyncCreditStoresUnits(existing: Option<Fields>, r: RemoteObject, links: Links, api: Api)
    requires SyncSaved(CreditKind, existing, r, links, api).err.None?
    ensures var s := SyncSaved(CreditKind, existing, r, links, api);
      && s.calls == [Find(CreditKind, UriOf(r))]
      && "amount" in api(s.calls[0]).obj && api(s.calls[0]).obj["amount"].Int?
      && Get(s.fields, "amount") == Dec(Decimal(api(s.calls[0]).obj["amount"].i, 2))
  {
  }

  /** `sync` never adds a card, a debit or an account: a resource without
      a local row is copied onto a new instance, `_sync` never sets its
      user, and the database refuses the row, whatever the payments API
      answers. */
  lemma SyncNewRowRefused(kind: Kind, rows: map<string, Fields>, r: RemoteObject, links: Links, api: Api)
    requires kind in {CardKind, DebitKind, AccountKind} && UriOf(r) !in rows
    ensures var o := SyncStep(kind, rows, r, links, api);
      && o.rows == rows && o.err.Some?
      && (o.err.value.Remote? || o.err.value.BadRelation? || o.err == Some(NotNull("user")))
  {
    if SyncRefusal(kind, r).None? {
      var f := Upserted(kind, None, r);
      assert Lookup(rows, UriOf(r)) == None;
      SyncKeepsRelation(Schema(kind), Relations(kind), NewRecord(kind), r, "user");
      SaveWithoutUserRefused(kind, f, links, api);
    }
  }

  /** The save of a card, a debit or an account that has a URI but no
      user raises: the refetch fails, the reply names a relation with a
      plain value, or the row is refused for its empty user. */
  lemma SaveWithoutUserRefused(kind: Kind, f: Fields, links: Links, api: Api)
    requires kind in {CardKind, DebitKind, AccountKind} && HasUri(f) && !Linked(Get(f, "user"))
    ensures var s := SavedAs(kind, f, "", links, api);
      s.err.Some? && (s.err.value.Remote? || s.err.value.BadRelation? || s.err == Some(NotNull("user")))
  {
    if kind != AccountKind {
      var find := Find(kind, UriOf(f));
      if api(find).Ok? && SyncRefusal(kind, api(find).obj).None? {
        SyncKeepsRelation(Schema(kind), Relations(kind), f, api(find).obj, "user");
      }
    }
  }

  /** Debit.clean as written: `not self.card or self.bank_account` is
      `(not card) or bank_account`, so the first check already rejects
      every debit except a card-only one and the second can never fire. */
  function DebitCleanAsWritten(hasCard: bool, hasBankAccount: bool): (r: Option<string>)
    ensures !hasCard ==> r == Some("Must have either \"card\" or \"bank_account\"")
    ensures r.Some? ==> r == Some("Must have either \"card\" or \"bank_account\"")
  {
    if !hasCard || hasBankAccount then Some("Must have either \"card\" or \"bank_account\"")
    else if hasCard && hasBankAccount then Some("Cannot include both \"card\" and \"bank_account\"")
    else None
  }

  lemma DebitCleanAsWrittenAccepts(hasCard: bool, hasBankAccount: bool)
    ensures DebitCleanAsWritten(hasCard, hasBankAccount).None? <==> hasCard && !hasBankAccount
    ensures DebitCleanAsWritten(hasCard, hasBankAccount) != Some("Cannot include both \"card\" and \"bank_account\"")
  {
  }

  /** The input that shows the precedence bug: a debit funded only by a
      bank account is rejected as if it had neither source. */
  lemma DebitCleanRejectsBankOnly()
    ensures DebitCleanAsWritten(false, true) == Some("Must have either \"card\" or \"bank_account\"")
  {
  }

  /** Debit.clean as its two messages intend: exactly one source. */
  function DebitClean(hasCard: bool, hasBankAccount: bool): (r: Option<string>)
    ensures r.None? <==> hasCard != hasBankAccount
    ensures hasCard && hasBankAccount ==> r == Some("Cannot include both \"card\" and \"bank_account\"")
    ensures !hasCard && !hasBankAccount ==> r == Some("Must have either \"card\" or \"bank_account\"")
  {
    if !(hasCard || hasBankAccount) then Some("Must have either \"card\" or \"bank_account\"")
    else if hasCard && hasBankAccount then Some("Cannot include both \"card\" and \"bank_account\"")
    else None
  }

  /** `Debit(amount=..., description=..., statement_descriptor=...,
      user=...)`: a new debit with no source yet. */
  function NewDebitBase(amount: Value, description: Value, statementDescriptor: Value, user: Value): (f: Fields)
    ensures !HasUri(f)
    ensures Get(f, "amount") == amount && Get(f, "description") == description
    ensures Get(f, "statement_descriptor") == statementDescriptor && Get(f, "user") == user
    ensures !Linked(Get(f, "card")) && !Linked(Get(f, "bank_account"))
  {
    assert "card" !in TextFields(DebitKind) && "bank_account" !in TextFields(DebitKind);
    NewRecord(DebitKind)["amount" := amount]["description" := description]
      ["statement_descriptor" := statementDescriptor]["user" := user]
  }

  /** The debit Account.debit builds before saving: the card when given,
      otherwise the bank account when given. */
  function NewDebitFields(amount: Value, description: Value, statementDescriptor: Value, user: Value,
                          card: Value, bankAccount: Value): (f: Fields)
    ensures !HasUri(f)
    ensures Get(f, "amount") == amount && Get(f, "description") == description
    ensures Get(f, "statement_descriptor") == statementDescriptor && Get(f, "user") == user
    ensures Linked(card) ==> Get(f, "card") == card && !Linked(Get(f, "bank_account"))
    ensures !Linked(card) ==> !Linked(Get(f, "card"))
    ensures !Linked(card) && Linked(bankAccount) ==> Get(f, "bank_account") == bankAccount
    ensures !Linked(card) && !Linked(bankAccount) ==> !Linked(Get(f, "bank_account"))
  {
    var f := NewDebitBase(amount, description, statementDescriptor, user);
    if Linked(card) then f["card" := card]
    else if Linked(bankAccount) then f["bank_account" := bankAccount]
    else f
  }

  /** A debit made through Account.debit is funded by the card passed,
      else the bank account passed, else the user's first card. */
  lemma AccountDebitSource(amount: Value, description: Value, statementDescriptor: Value, user: Value,
                           card: Value, bankAccount: Value, userCards: seq<string>)
    ensures var f := NewDebitFields(amount, description, statementDescriptor, user, card, bankAccount);
      DebitSource(Get(f, "card"), Get(f, "bank_account"), userCards) ==
        if Linked(card) then Some(card.s)
        else if Linked(bankAccount) then Some(bankAccount.s)
        else if userCards != [] then Some(userCards[0])
        else None
  {
  }

  // BankAccount.debit and Card.debit

  /** The instance a BankAccount.debit or a Card.debit is called on; it
      reaches Account.debit under its own keyword. */
  datatype DebitOrigin = FromBankAccount(bankAccountUri: string) | FromCard(cardUri: string)

  function OriginKeyword(o: DebitOrigin): string {
    if o.FromCard? then "card" else "bank_account"
  }

  function OriginUri(o: DebitOrigin): string {
    if o.FromCard? then o.cardUri else o.bankAccountUri
  }

  /** The keyword parameters of Account.debit, and those of them without
      a default. */
  const AccountDebitParameters: set<string> := {"amount", "description", "card", "bank_account", "statement_descriptor"}
  const AccountDebitRequired: set<string> := {"amount", "description"}

  /** A call of Account.debit by keywords. Before its body runs, a keyword
      it has no parameter for raises TypeError, and so, after that check,
      does a missing `amount` or `description`. Otherwise every parameter
      takes its keyword's value, or None, and the debit is built and
      saved. */
  function AccountDebitCall(kwargs: map<string, Value>, user: Value, links: Links, api: Api): (r: Result<Saved, Error>)
    ensures r.Failure? <==> !(kwargs.Keys <= AccountDebitParameters) || !(AccountDebitRequired <= kwargs.Keys)
    ensures !(kwargs.Keys <= AccountDebitParameters) ==>
      r == Failure(UnexpectedKeywords(kwargs.Keys - AccountDebitParameters))
    ensures kwargs.Keys <= AccountDebitParameters && !(AccountDebitRequired <= kwargs.Keys) ==>
      r == Failure(MissingArguments(AccountDebitRequired - kwargs.Keys))
    ensures r.Success? ==> StopsAtFailure(r.value.calls, r.value.err, api)
  {
    if !(kwargs.Keys <= AccountDebitParameters) then
      Failure(UnexpectedKeywords(kwargs.Keys - AccountDebitParameters))
    else if !(AccountDebitRequired <= kwargs.Keys) then
      Failure(MissingArguments(AccountDebitRequired - kwargs.Keys))
    else
      Success(SavedDebit(NewDebitFields(kwargs["amount"], kwargs["description"], Get(kwargs, "statement_descriptor"),
                                        user, Get(kwargs, "card"), Get(kwargs, "bank_account")), links, api))
  }

  /** The keywords BankAccount.debit and Card.debit pass to Account.debit,
      with the statement descriptor under `descriptorKeyword`. */
  function OriginKwargs(o: DebitOrigin, amount: Value, description: Value, descriptorKeyword: string,
                        statementDescriptor: Value): map<string, Value> {
    map["amount" := amount, "description" := description, descriptorKeyword := statementDescriptor,
        OriginKeyword(o) := Str(OriginUri(o))]
  }

  /** BankAccount.debit and Card.debit as written: look up the user's
      account, then call its `debit` with the statement descriptor under
      the keyword `appears_on_statement_as`. */
  function OriginDebitAsWritten(o: DebitOrigin, amount: Value, description: Value, statementDescriptor: Value,
                                user: Value, links: Links, api: Api): Result<Saved, Error> {
    if links.accountUri.None? then Failure(DoesNotExist("balanced_account"))
    else
      AccountDebitCall(OriginKwargs(o, amount, description, "appears_on_statement_as", statementDescriptor), user, links, api)
  }

  /** As written, a debit through a bank account or a card never reaches
      Account.debit's body: for a user with an account it raises TypeError
      on `appears_on_statement_as`, with no remote call. */
  lemma OriginDebitAsWrittenRaises(o: DebitOrigin, amount: Value, description: Value, statementDescriptor: Value,
                                   user: Value, links: Links, api: Api)
    requires links.accountUri.Some?
    ensures OriginDebitAsWritten(o, amount, description, statementDescriptor, user, links, api)
      == Failure(UnexpectedKeywords({"appears_on_statement_as"}))
  {
    var kwargs := OriginKwargs(o, amount, description, "appears_on_statement_as", statementDescriptor);
    assert kwargs.Keys == {"amount", "description", "appears_on_statement_as", OriginKeyword(o)};
    assert kwargs.Keys - AccountDebitParameters == {"appears_on_statement_as"};
  }

  /** BankAccount.debit and Card.debit as intended: the statement
      descriptor passed under `statement_descriptor`. */
  function OriginDebit(o: DebitOrigin, amount: Value, description: Value, statementDescriptor: Value,
                       user: Value, links: Links, api: Api): Result<Saved, Error> {
    if links.accountUri.None? then Failure(DoesNotExist("balanced_account"))
    else
      AccountDebitCall(OriginKwargs(o, amount, description, "statement_descriptor", statementDescriptor), user, links, api)
  }

  /** As intended, a debit through a bank account or a card is funded by
      that very instance: once the user's account is fetched, the debit is
      created on it from this source, with the amount, description and
      statement descriptor given. */
  lemma OriginDebitFunded(o: DebitOrigin, amount: Value, description: Value, statementDescriptor: Value,
                          user: Value, links: Links, api: Api)
    requires links.accountUri.Some? && api(Find(AccountKind, links.accountUri.value)).Ok?
    ensures var r := OriginDebit(o, amount, description, statementDescriptor, user, links, api);
      && r.Success? && |r.value.calls| >= 2
      && r.value.calls[0] == Find(AccountKind, links.accountUri.value)
      && r.value.calls[1] == CreateDebit(UriOf(api(Find(AccountKind, links.accountUri.value)).obj),
                                         amount, description, statementDescriptor, OriginUri(o))
  {
    var kwargs := OriginKwargs(o, amount, description, "statement_descriptor", statementDescriptor);
    OriginKwargsDebit(o, amount, description, statementDescriptor, user, links, api);
    var f := NewDebitFields(amount, description, statementDescriptor, user, Get(kwargs, "card"), Get(kwargs, "bank_account"));
    assert OriginDebit(o, amount, description, statementDescriptor, user, links, api) == Success(SavedDebit(f, links, api));
  }

  /** With `statement_descriptor`, every keyword binds: the debit built
      carries the instance as its source. */
  lemma OriginKwargsDebit(o: DebitOrigin, amount: Value, description: Value, statementDescriptor: Value,
                          user: Value, links: Links, api: Api)
    ensures var kwargs := OriginKwargs(o, amount, description, "statement_descriptor", statementDescriptor);
      var f := NewDebitFields(amount, description, statementDescriptor, user, Get(kwargs, "card"), Get(kwargs, "bank_account"));
      && AccountDebitCall(kwargs, user, links, api) == Success(SavedDebit(f, links, api))
      && DebitSource(Get(f, "card"), Get(f, "bank_account"), links.cardUris) == Some(OriginUri(o))
  {
    var kwargs := OriginKwargs(o, amount, description, "statement_descriptor", statementDescriptor);
    OriginKwargsBind(o, amount, description, statementDescriptor);
    AccountDebitSource(amount, description, statementDescriptor, user, Get(kwargs, "card"), Get(kwargs, "bank_account"), links.cardUris);
  }

  /** Every keyword BankAccount.debit and Card.debit would pass, with
      `statement_descriptor`, is a parameter of Account.debit; the
      instance is the only source among them. */
  lemma OriginKwargsBind(o: DebitOrigin, amount: Value, description: Value, statementDescriptor: Value)
    ensures var kwargs := OriginKwargs(o, amount, description, "statement_descriptor", statementDescriptor);
      && kwargs.Keys <= AccountDebitParameters && AccountDebitRequired <= kwargs.Keys
      && Get(kwargs, "amount") == amount && Get(kwargs, "description") == description
      && Get(kwargs, "statement_descriptor") == statementDescriptor
      && Get(kwargs, "card") == (if o.FromCard? then Str(o.cardUri) else Null)
      && Get(kwargs, "bank_account") == (if o.FromBankAccount? then Str(o.bankAccountUri) else Null)
  {
    var kwargs := OriginKwargs(o, amount, description, "statement_descriptor", statementDescriptor);
    assert kwargs.Keys == {"amount", "description", "statement_descriptor", OriginKeyword(o)};
  }

  /** The credit Account.credit builds before saving: scheduled, for the
      account's user. */
  function NewCreditFields(amount: Value, description: Value, statementDescriptor: Value, user: Value,
                           bankAccount: Value): (f: Fields)
    ensures !HasUri(f)
    ensures Get(f, "amount") == amount && Get(f, "description") == description
    ensures Get(f, "statement_descriptor") == statementDescriptor && Get(f, "user") == user
    ensures Get(f, "bank_account") == bankAccount && Get(f, "status") == Str("s")
  {
    var base := NewRecord(CreditKind);
    assert UriOf(base) == "";
    base["amount" := amount]["description" := description]
      ["statement_descriptor" := statementDescriptor]["user" := user]
      ["bank_account" := bankAccount]["status" := Str("s")]
  }


  /** One of the five local resource tables: URI to row. */
  class Table {
    const kind: Kind
    var rows: map<string, Fields>

    constructor (kind: Kind, rows: map<string, Fields>)
      ensures this.kind == kind && this.rows == rows
    {
      this.kind := kind;
      this.rows := rows;
    }

    /** One pass of `sync`'s loop: `_sync` the remote resource onto the row
        with its URI or a new instance, and save that instance. */
    method SyncOne(remote: RemoteObject, links: Links, api: Api) returns (err: Option<Error>)
      modifies this
      ensures SyncOutcome(rows, err) == SyncStep(kind, old(rows), remote, links, api)
    {
      var existing := new Resource(kind, if UriOf(remote) in rows then rows[UriOf(remote)] else NewRecord(kind));
      var raised := existing.Sync(remote);
      if raised.Some? {
        return Some(BadRelation(raised.value));
      }
      assert existing.fields == Upserted(kind, Lookup(rows, UriOf(remote)), remote);
      var s := existing.Save(this, "", links, api);
      err := s.err;
    }

    /** The classmethod `sync`: for every remote resource, `_sync` it onto
        the row with its URI or a new instance and save that instance; the
        first save that raises stops the loop. */
    method SyncAll(query: seq<RemoteObject>, links: Links, api: Api) returns (err: Option<Error>)
      modifies this
      ensures SyncOutcome(rows, err) == SyncRun(kind, old(rows), query, links, api)
    {
      var i := 0;
      while i < |query|
        invariant 0 <= i <= |query|
        invariant SyncRun(kind, old(rows), query[..i], links, api) == SyncOutcome(rows, None)
      {
        var remote := query[i];
        var e := SyncOne(remote, links, api);
        assert query[..i + 1][..i] == query[..i] && query[..i + 1][i] == remote;
        SyncRunSnoc(kind, old(rows), query[..i + 1], links, api);
        if e.Some? {
          SyncRunStops(kind, old(rows), query, links, api, i);
          return e;
        }
        i := i + 1;
      }
      assert query[..i] == query;
      err := None;
    }
  }

  /** A model instance: its kind and its current field values. */
  class Resource {
    const kind: Kind
    var fields: Fields

    constructor (kind: Kind, fields: Fields)
      ensures this.kind == kind && this.fields == fields
    {
      this.kind := kind;
      this.fields := fields;
    }

    /** `_sync`: set, field by field, every field of this model that the
        remote object has with a primitive value; setting one on a relation
        raises, and the field it raised at is returned. */
    method Sync(remote: RemoteObject) returns (raised: Option<string>)
      modifies this
      ensures raised == SyncRefusal(kind, remote) && fields == SyncedUpTo(kind, old(fields), remote)
    {
      var names := Schema(kind);
      var i := 0;
      while i < |names|
        invariant 0 <= i <= SyncReach(names, Relations(kind), remote)
        invariant fields == SyncedFields(names[..i], old(fields), remote)
      {
        var name := names[i];
        if Refused(Relations(kind), remote, name) {
          SyncedUpToReach(kind, old(fields), remote, i);
          return Some(name);
        }
        if name in remote && IsPrimitive(remote[name]) {
          fields := fields[name := remote[name]];
        }
        SyncedFieldsSnoc(names[..i], name, old(fields), remote);
        assert names[..i + 1] == names[..i] + [name];
        i := i + 1;
      }
      assert names[..i] == names;
      SyncedUpToReach(kind, old(fields), remote, i);
      raised := None;
    }

    /** Write this instance's row (the model's base save); the database
        refuses it when the NOT NULL relation is empty. */
    method Persist(table: Table) returns (err: Option<Error>)
      modifies table
      ensures err == WriteError(kind, fields)
      ensures table.rows == if err.None? then old(table.rows)[UriOf(fields) := fields] else old(table.rows)
    {
      var column := NonNullRelation(kind);
      if column.Some? && !Linked(Get(fields, column.value)) {
        return Some(NotNull(column.value));
      }
      table.rows := table.rows[UriOf(fields) := fields];
      err := None;
    }

    /** Make one more call: copy a successful reply into this instance and
        write the row; on a failed reply raise its error and write nothing. */
    method Refresh(table: Table, req: Request, reply: Reply, before: seq<Request>) returns (s: Saved)
      modifies this, table
      ensures s == Refreshed(kind, old(fields), req, reply, before)
      ensures fields == s.fields
      ensures table.rows == if s.err.None? then old(table.rows)[UriOf(fields) := fields] else old(table.rows)
    {
      match reply
      case Failed(e) =>
        s := Saved(fields, before + [req], Some(Remote(e)));
      case Ok(obj) =>
        var raised := Sync(obj);
        if raised.Some? {
          return Saved(fields, before + [req], Some(BadRelation(raised.value)));
        }
        var e := Persist(table);
        s := Saved(fields, before + [req], e);
    }

    method SaveBankAccount(table: Table, api: Api) returns (s: Saved)
      requires kind == BankAccountKind
      modifies this, table
      ensures s == SavedBankAccount(old(fields), api) && fields == s.fields
      ensures table.rows == if s.err.None? then old(table.rows)[UriOf(fields) := fields] else old(table.rows)
    {
      if !HasUri(fields) {
        var req := CreateBankAccount(Get(fields, "routing_number"), Get(fields, "account_number"),
                                     Get(fields, "name"), Get(fields, "type"));
        s := Refresh(table, req, api(req), []);
      } else {
        var find := Find(BankAccountKind, UriOf(fields));
        var found := api(find);
        if found.Failed? {
          return Saved(fields, [find], Some(Remote(found.error)));
        }
        s := Refresh(table, Update(found.obj), api(Update(found.obj)), [find]);
      }
    }

    method SaveCard(table: Table, cardUri: string, links: Links, api: Api) returns (s: Saved)
      requires kind == CardKind
      modifies this, table
      ensures s == SavedCard(old(fields), cardUri, links, api) && fields == s.fields
      ensures table.rows == if s.err.None? then old(table.rows)[UriOf(fields) := fields] else old(table.rows)
    {
      var before: seq<Request> := [];
      if !HasUri(fields) {
        if links.accountUri.None? {
          return Saved(fields, [], Some(DoesNotExist("balanced_account")));
        }
        var fetch := Find(AccountKind, links.accountUri.value);
        var account := api(fetch);
        if account.Failed? {
          return Saved(fields, [fetch], Some(Remote(account.error)));
        }
        var add := AddCard(UriOf(account.obj), cardUri);
        var added := api(add);
        if added.Failed? {
          return Saved(fields, [fetch, add], Some(Remote(added.error)));
        }
        fields := fields["uri" := Str(cardUri)];
        before := [fetch, add];
      }
      var find := Find(CardKind, UriOf(fields));
      s := Refresh(table, find, api(find), before);
    }

    /** The rest of Credit.save once the credit's reply is in. */
    method StoreCredit(table: Table, obj: RemoteObject, links: Links, calls: seq<Request>) returns (s: Saved)
      requires kind == CreditKind
      modifies this, table
      ensures s == CreditAfterReply(old(fields), obj, links, calls) && fields == s.fields
      ensures table.rows == if s.err.None? then old(table.rows)[UriOf(fields) := fields] else old(table.rows)
    {
      var raised := Sync(obj);
      if raised.Some? {
        return Saved(fields, calls, Some(BadRelation(raised.value)));
      }
      if !("amount" in obj && obj["amount"].Int?) {
        return Saved(fields, calls, Some(MalformedReply("amount")));
      }
      fields := fields["amount" := Dec(FromCents(obj["amount"].i))];
      if !Linked(Get(fields, "bank_account")) {
        if !("bank_account" in obj && obj["bank_account"].Ref?) {
          return Saved(fields, calls, Some(MalformedReply("bank_account")));
        }
        if obj["bank_account"].uri !in links.bankAccountUris {
          return Saved(fields, calls, Some(DoesNotExist("bank_account")));
        }
        fields := fields["bank_account" := Str(obj["bank_account"].uri)];
      }
      var e := Persist(table);
      s := Saved(fields, calls, e);
    }

    method SaveCredit(table: Table, links: Links, api: Api) returns (s: Saved)
      requires kind == CreditKind
      modifies this, table
      ensures s == SavedCredit(old(fields), links, api) && fields == s.fields
      ensures table.rows == if s.err.None? then old(table.rows)[UriOf(fields) := fields] else old(table.rows)
    {
      if HasUri(fields) {
        var find := Find(CreditKind, UriOf(fields));
        var reply := api(find);
        if reply.Failed? {
          return Saved(fields, [find], Some(Remote(reply.error)));
        }
        s := StoreCredit(table, reply.obj, links, [find]);
        return;
      }
      var bank := Get(fields, "bank_account");
      if !Linked(bank) {
        return Saved(fields, [], Some(MissingRelation("bank_account")));
      }
      var fetch := Find(BankAccountKind, bank.s);
      var fetched := api(fetch);
      if fetched.Failed? {
        return Saved(fields, [fetch], Some(Remote(fetched.error)));
      }
      if !("credits_uri" in fetched.obj && fetched.obj["credits_uri"].Str?) {
        return Saved(fields, [fetch], Some(MalformedReply("credits_uri")));
      }
      var post := CreateCredit(fetched.obj["credits_uri"].s, Get(fields, "amount"), Get(fields, "description"),
                               Get(fields, "statement_descriptor"));
      var reply := api(post);
      if reply.Failed? {
        return Saved(fields, [fetch, post], Some(Remote(reply.error)));
      }
      s := StoreCredit(table, reply.obj, links, [fetch, post]);
    }

    method SaveDebit(table: Table, links: Links, api: Api) returns (s: Saved)
      requires kind == DebitKind
      modifies this, table
      ensures s == SavedDebit(old(fields), links, api) && fields == s.fields
      ensures table.rows == if s.err.None? then old(table.rows)[UriOf(fields) := fields] else old(table.rows)
    {
      if HasUri(fields) {
        var find := Find(DebitKind, UriOf(fields));
        s := Refresh(table, find, api(find), []);
        return;
      }
      if links.accountUri.None? {
        return Saved(fields, [], Some(DoesNotExist("balanced_account")));
      }
      var fetch := Find(AccountKind, links.accountUri.value);
      var account := api(fetch);
      if account.Failed? {
        return Saved(fields, [fetch], Some(Remote(account.error)));
      }
      var source := DebitSource(Get(fields, "card"), Get(fields, "bank_account"), links.cardUris);
      if source.None? {
        return Saved(fields, [fetch], Some(NoCardOnFile));
      }
      var create := CreateDebit(UriOf(account.obj), Get(fields, "amount"), Get(fields, "description"),
                                Get(fields, "statement_descriptor"), source.value);
      var debit := api(create);
      if debit.Failed? {
        return Saved(fields, [fetch, create], Some(Remote(debit.error)));
      }
      s := Refresh(table, Update(debit.obj), api(Update(debit.obj)), [fetch, create]);
    }

    method SaveAccount(table: Table, links: Links, api: Api) returns (s: Saved)
      requires kind == AccountKind
      modifies this, table
      ensures s == SavedAccount(old(fields), links, api) && fields == s.fields
      ensures table.rows == if s.err.None? then old(table.rows)[UriOf(fields) := fields] else old(table.rows)
    {
      if !HasUri(fields) {
        var req := CreateAccount(links.username);
        s := Refresh(table, req, api(req), []);
      } else {
        var e := Persist(table);
        s := Saved(fields, [], e);
      }
    }

    /** `save()`, whichever kind this instance is. */
    method Save(table: Table, cardUri: string, links: Links, api: Api) returns (s: Saved)
      modifies this, table
      ensures s == SavedAs(kind, old(fields), cardUri, links, api) && fields == s.fields
      ensures table.rows == if s.err.None? then old(table.rows)[UriOf(fields) := fields] else old(table.rows)
    {
      match kind
      case BankAccountKind => s := SaveBankAccount(table, api);
      case CardKind => s := SaveCard(table, cardUri, links, api);
      case CreditKind => s := SaveCredit(table, links, api);
      case DebitKind => s := SaveDebit(table, links, api);
      case AccountKind => s := SaveAccount(table, links, api);
    }

    /** `delete`: the remote side first, then the local row; credits,
        debits and accounts raise before touching anything. */
    method Delete(table: Table, api: Api) returns (calls: seq<Request>, err: Option<Error>)
      modifies table
      ensures (calls, err) == DeleteOutcome(kind, fields, api)
      ensures table.rows == if err.None? then old(table.rows) - {UriOf(fields)} else old(table.rows)
    {
      if kind == CreditKind || kind == DebitKind || kind == AccountKind {
        return [], Some(NotImplemented);
      }
      var find := Find(kind, UriOf(fields));
      var found := api(find);
      if found.Failed? {
        return [find], Some(Remote(found.error));
      }
      var req := if kind == BankAccountKind then DeleteBankAccount(UriOf(found.obj)) else Update(Invalidated(found.obj));
      var reply := api(req);
      calls := [find, req];
      if reply.Failed? {
        return calls, Some(Remote(reply.error));
      }
      err := None;
      table.rows := table.rows - {UriOf(fields)};
    }
  }

  /** Account.debit: build the debit for the account's user and save it. */
  method AccountDebit(account: Resource, amount: Value, description: Value, card: Value, bankAccount: Value,
                      statementDescriptor: Value, table: Table, links: Links, api: Api)
    returns (debit: Resource, s: Saved)
    modifies table
    ensures fresh(debit) && debit.kind == DebitKind
    ensures s == SavedDebit(NewDebitFields(amount, description, statementDescriptor, Get(account.fields, "user"), card, bankAccount), links, api)
    ensures debit.fields == s.fields
    ensures table.rows == if s.err.None? then old(table.rows)[UriOf(debit.fields) := debit.fields] else old(table.rows)
  {
    debit := new Resource(DebitKind, NewDebitBase(amount, description, statementDescriptor, Get(account.fields, "user")));
    if Linked(card) {
      debit.fields := debit.fields["card" := card];
    } else if Linked(bankAccount) {
      debit.fields := debit.fields["bank_account" := bankAccount];
    }
    assert debit.fields == NewDebitFields(amount, description, statementDescriptor, Get(account.fields, "user"), card, bankAccount);
    s := debit.SaveDebit(table, links, api);
  }

  /** Account.credit: build a scheduled credit for the account's user and
      save it. */
  method AccountCredit(account: Resource, amount: Value, description: Value, bankAccount: Value,
                       statementDescriptor: Value, table: Table, links: Links, api: Api)
    returns (credit: Resource, s: Saved)
    modifies table
    ensures fresh(credit) && credit.kind == CreditKind
    ensures s == SavedCredit(NewCreditFields(amount, description, statementDescriptor, Get(account.fields, "user"), bankAccount), links, api)
    ensures credit.fields == s.fields
    ensures table.rows == if s.err.None? then old(table.rows)[UriOf(credit.fields) := credit.fields] else old(table.rows)
  {
    credit := new Resource(CreditKind, NewCreditFields(amount, description, statementDescriptor, Get(account.fields, "user"), bankAccount));
    s := credit.SaveCredit(table, links, api);
  }
}

=== FILE: money.dfy ===
/**
 * Decimal amounts as the payout and credit forms receive them, and their
 * conversion to integer minor units (cents), which is what the remote
 * payments API is given.
 */
module Money {

  /** A decimal number `unscaled × 10^-places`, kept with its written scale
      as Python's Decimal keeps it: "1.50" is Decimal(150, 2), "1.5" is
      Decimal(15, 1) and "0.500" is Decimal(500, 3). */
  datatype Decimal = Decimal(unscaled: int, places: nat)

  function Pow10(n: nat): (r: nat)
    ensures r >= 1
  {
    if n == 0 then 1 else 10 * Pow10(n - 1)
  }

  lemma {:induction false} Pow10Add(a: nat, b: nat)
    ensures Pow10(a + b) == Pow10(a) * Pow10(b)
  {
    if a > 0 {
      Pow10Add(a - 1, b);
      assert Pow10(a + b) == 10 * Pow10(a - 1 + b);
    }
  }

  function Abs(x: int): nat {
    if x < 0 then -x else x
  }

  /** `amount × 100` for an amount with at most two decimal places: exact,
      so Python's `int(amount * 100)` is the same integer. */
  function ToCents(d: Decimal): (c: int)
    requires d.places <= 2
    ensures c * Pow10(d.places) == d.unscaled * 100
  {
    Pow10Add(2 - d.places, d.places);
    assert Pow10(2) == 100;
    d.unscaled * Pow10(2 - d.places)
  }

  /** Python's `int(amount * 100)`: the amount in cents, truncated toward
      zero when the amount has more than two places. */
  function IntCents(d: Decimal): (c: int)
    ensures d.places <= 2 ==> c == ToCents(d)
  {
    if d.places <= 2 then ToCents(d)
    else TruncatedCents(d.unscaled, Pow10(d.places))
  }

  /** `int(u * 100 / p)` in Python: division truncating toward zero. */
  function TruncatedCents(u: int, p: nat): int
    requires p >= 1
  {
    var q := (Abs(u) * 100) / p;
    if u < 0 then -q else q
  }

  /** `int(amount * 100)` keeps the sign of the amount and is the largest
      magnitude not above |amount| × 100. */
  lemma IntCentsTruncates(d: Decimal)
    ensures d.unscaled >= 0 ==> IntCents(d) >= 0
    ensures d.unscaled <= 0 ==> IntCents(d) <= 0
    ensures Abs(IntCents(d)) * Pow10(d.places) <= Abs(d.unscaled) * 100 < (Abs(IntCents(d)) + 1) * Pow10(d.places)
  {
    if d.places <= 2 {
      IntCentsExact(d);
    } else {
      IntCentsOfLongAmount(d);
    }
  }

  lemma IntCentsExact(d: Decimal)
    requires d.places <= 2
    ensures d.unscaled >= 0 ==> IntCents(d) >= 0
    ensures d.unscaled <= 0 ==> IntCents(d) <= 0
    ensures Abs(IntCents(d)) * Pow10(d.places) == Abs(d.unscaled) * 100
  {
    ExactCentsMagnitude(d);
    SignOfProduct(d.unscaled, Pow10(2 - d.places));
  }

  lemma IntCentsOfLongAmount(d: Decimal)
    requires d.places > 2
    ensures d.unscaled >= 0 ==> IntCents(d) >= 0
    ensures d.unscaled <= 0 ==> IntCents(d) <= 0
    ensures Abs(IntCents(d)) * Pow10(d.places) <= Abs(d.unscaled) * 100 < (Abs(IntCents(d)) + 1) * Pow10(d.places)
  {
    TruncatedCentsBounds(d.unscaled, Pow10(d.places));
  }

  lemma TruncatedCentsBounds(u: int, p: nat)
    requires p >= 1
    ensures u >= 0 ==> TruncatedCents(u, p) >= 0
    ensures u <= 0 ==> TruncatedCents(u, p) <= 0
    ensures Abs(TruncatedCents(u, p)) * p <= Abs(u) * 100 < (Abs(TruncatedCents(u, p)) + 1) * p
  {
    var a := Abs(u) * 100;
    DivBounds(a, p);
    assert Abs(TruncatedCents(u, p)) == a / p;
  }

  lemma SignOfProduct(x: int, k: nat)
    ensures x >= 0 ==> x * k >= 0
    ensures x <= 0 ==> x * k <= 0
  {
  }

  lemma DivBounds(a: nat, p: nat)
    requires p >= 1
    ensures a / p >= 0
    ensures (a / p) * p <= a < (a / p + 1) * p
  {
  }

  lemma ExactCentsMagnitude(d: Decimal)
    requires d.places <= 2
    ensures Abs(ToCents(d)) * Pow10(d.places) == Abs(d.unscaled) * 100
  {
    AbsCents(d);
    Pow10Add(2 - d.places, d.places);
    assert Pow10(2) == 100;
    assert Abs(d.unscaled) * Pow10(2 - d.places) * Pow10(d.places) == Abs(d.unscaled) * (Pow10(2 - d.places) * Pow10(d.places));
  }

  /** A two-decimal amount written with exactly two places. */
  function FromCents(c: int): (d: Decimal)
    ensures d.places == 2 && ToCents(d) == c
  {
    Decimal(c, 2)
  }

  /** `a >= b` on the values the two decimals denote. */
  predicate AtLeast(a: Decimal, b: Decimal) {
    a.unscaled * Pow10(b.places) >= b.unscaled * Pow10(a.places)
  }

  /** Decimal('.50'), the smallest payout the payout form accepts. */
  const MinPayout := Decimal(50, 2)

  lemma {:induction false} AtLeastMinPayoutInCents(d: Decimal)
    requires d.places <= 2
    ensures AtLeast(d, MinPayout) <==> ToCents(d) >= 50
  {
    var q := Pow10(2 - d.places);
    Pow10Add(2 - d.places, d.places);
    assert Pow10(2) == 100;
    assert ToCents(d) == d.unscaled * q;
    // both sides of AtLeast scale by q > 0
    assert d.unscaled * 100 == d.unscaled * q * Pow10(d.places);
    assert 50 * Pow10(d.places) * q == 5000;
    MulStrict(d.unscaled * q, 50, Pow10(d.places));
  }

  lemma MulStrict(x: int, y: int, k: int)
    requires k > 0
    ensures x >= y <==> x * k >= y * k
  {
    if x >= y {
      assert x * k - y * k == (x - y) * k;
    } else {
      assert y * k - x * k == (y - x) * k;
    }
  }

  /** The number of digits Python's Decimal.as_tuple() gives for a
      magnitude: zero has the single digit 0. */
  function NumDigits(n: nat): (r: nat)
    ensures r >= 1
  {
    if n < 10 then 1 else 1 + NumDigits(n / 10)
  }

  lemma {:induction false} NumDigitsBound(n: nat, k: nat)
    requires k >= 1
    ensures NumDigits(n) <= k <==> n < Pow10(k)
  {
    if n >= 10 {
      if k == 1 {
        assert Pow10(1) == 10;
      } else {
        NumDigitsBound(n / 10, k - 1);
      }
    } else {
      Pow10Add(1, k - 1);
      assert Pow10(1) == 10;
    }
  }

  /** The digit count Django's decimal validator computes for a value
      with a non-positive exponent: when the exponent reaches past the
      digits (0.05 is digits (5,), exponent -2) the places are the count. */
  function Digits(d: Decimal): nat {
    var n := NumDigits(Abs(d.unscaled));
    if d.places > n then d.places else n
  }

  /** The checks of a DecimalField(max_digits = maxDigits,
      decimal_places = maxPlaces): total digits, decimal places and whole
      digits. */
  predicate FitsDecimalField(d: Decimal, maxDigits: nat, maxPlaces: nat)
    requires maxPlaces <= maxDigits
  {
    && Digits(d) <= maxDigits
    && d.places <= maxPlaces
    && Digits(d) - d.places <= maxDigits - maxPlaces
  }

  /** The magnitude in cents of a two-decimal amount. */
  lemma AbsCents(d: Decimal)
    requires d.places <= 2
    ensures Abs(ToCents(d)) == Abs(d.unscaled) * Pow10(2 - d.places)
  {
    var q: int := Pow10(2 - d.places);
    if d.unscaled < 0 {
      assert ToCents(d) == d.unscaled * q == -(Abs(d.unscaled) * q);
    }
  }

  /** At most two places, whole digits within max_digits - 2: the digit
      count of the unscaled value is what decides. */
  lemma DigitsWithinCreditField(d: Decimal)
    requires d.places <= 2
    ensures FitsDecimalField(d, 10, 2) <==> NumDigits(Abs(d.unscaled)) <= d.places + 8
  {
  }

  /** For DecimalField(max_digits=10, decimal_places=2): an amount is
      accepted iff it has at most two places and fewer than 10^10 cents in
      magnitude, i.e. at most 99,999,999.99 either way. */
  lemma CreditAmountFieldInCents(d: Decimal)
    ensures FitsDecimalField(d, 10, 2) <==> d.places <= 2 && Abs(ToCents(d)) < Pow10(10)
  {
    if d.places <= 2 {
      var u: int := Abs(d.unscaled);
      var p := d.places;
      DigitsWithinCreditField(d);
      NumDigitsBound(u, p + 8);
      Pow10Add(p + 8, 2 - p);
      AbsCents(d);
      MulStrict(u, Pow10(p + 8), Pow10(2 - p));
    }
  }
}

=== FILE: resources.dfy ===
/**
 * What every mirrored payment resource shares (BalancedResource in
 * models.py): attribute values, the generic field-copy rule `_sync`, the
 * URI that keys every local row, and the link to the hosted dashboard.
 */
module Resources {
  import opened Money

  /** An attribute value, on a local record or on a remote resource.
      `Ref` is a nested remote resource (known by its URI) and `Other` any
      further non-primitive value (a list, a dictionary, a pager). */
  datatype Value =
    | Str(s: string)
    | Int(i: int)
    | Bool(b: bool)
    | Time(t: int)
    | Dec(d: Decimal)
    | Ref(uri: string)
    | Other
    | Null

  /** Attribute name to value: a local model instance or a remote resource. */
  type Fields = map<string, Value>

  /** A resource returned by the remote API: it always carries a URI. */
  type RemoteObject = f: Fields | "uri" in f && f["uri"].Str? && f["uri"].s != "" witness map["uri" := Str("/v1")]

  /** `isinstance(value, (basestring, int, datetime))`; a Python bool is an
      int, a Decimal, None or a nested resource is none of the three. */
  predicate IsPrimitive(v: Value) {
    v.Str? || v.Int? || v.Bool? || v.Time?
  }

  /** Whether `_sync` copies `name`: a local field name that the remote
      object has, with a primitive value. */
  predicate Copied(names: seq<string>, remote: Fields, name: string) {
    name in names && name in remote && IsPrimitive(remote[name])
  }

  /** The local fields after `_sync(remote)` has visited every name in
      `names`, in order. */
  function SyncedFields(names: seq<string>, local: Fields, remote: Fields): (r: Fields)
    ensures local.Keys <= r.Keys
  {
    if names == [] then local
    else
      var name := names[0];
      var next := if name in remote && IsPrimitive(remote[name]) then local[name := remote[name]] else local;
      SyncedFields(names[1..], next, remote)
  }

  /** `_sync` sets a field exactly when the remote object has it with a
      primitive value and the model lists it; every other field keeps its
      value, and no field is dropped. */
  lemma {:induction false} SyncedFieldAt(names: seq<string>, local: Fields, remote: Fields, n: string)
    ensures n in SyncedFields(names, local, remote) <==> n in local || Copied(names, remote, n)
    ensures n in SyncedFields(names, local, remote) ==>
      SyncedFields(names, local, remote)[n] == if Copied(names, remote, n) then remote[n] else local[n]
  {
    if names != [] {
      var name := names[0];
      var next := if name in remote && IsPrimitive(remote[name]) then local[name := remote[name]] else local;
      SyncedFieldAt(names[1..], next, remote, n);
      assert Copied(names, remote, n) <==> Copied(names[1..], remote, n) || (n == name && Copied(names, remote, n));
    }
  }

  /** Visiting one more name: `_sync` over `names + [name]` is `_sync`
      over `names`, then over `name`. */
  lemma {:induction false} SyncedFieldsSnoc(names: seq<string>, name: string, local: Fields, remote: Fields)
    ensures SyncedFields(names + [name], local, remote) == SyncedFields([name], SyncedFields(names, local, remote), remote)
  {
    if names != [] {
      var next := if names[0] in remote && IsPrimitive(remote[names[0]]) then local[names[0] := remote[names[0]]] else local;
      assert (names + [name])[0] == names[0];
      assert (names + [name])[1..] == names[1..] + [name];
      SyncedFieldsSnoc(names[1..], name, next, remote);
    } else {
      assert names + [name] == [name];
    }
  }

  /** `setattr` of a string, int or datetime on a relation (a foreign
      key, or the manager of a reverse relation) raises: Django's related
      descriptors take only model instances. */
  predicate Refused(relations: set<string>, remote: Fields, name: string) {
    name in relations && name in remote && IsPrimitive(remote[name])
  }

  /** How far `_sync` gets through `names`: the index of the first name
      whose `setattr` raises, or every name when none does. */
  function SyncReach(names: seq<string>, relations: set<string>, remote: Fields): (k: nat)
    ensures k <= |names|
    ensures forall i :: 0 <= i < k ==> !Refused(relations, remote, names[i])
    ensures k < |names| ==> Refused(relations, remote, names[k])
  {
    if names == [] || Refused(relations, remote, names[0]) then 0
    else 1 + SyncReach(names[1..], relations, remote)
  }

  /** A `_sync` that visits every name leaves each relation as it was:
      nothing it could copy there would have been accepted. */
  lemma SyncKeepsRelation(names: seq<string>, relations: set<string>, local: Fields, remote: Fields, n: string)
    requires SyncReach(names, relations, remote) == |names| && n in relations
    ensures Get(SyncedFields(names, local, remote), n) == Get(local, n)
  {
    SyncedFieldAt(names, local, remote, n);
  }

  /** Copying twice from the same remote object changes nothing more. */
  lemma SyncedFieldsIdempotent(names: seq<string>, local: Fields, remote: Fields)
    ensures SyncedFields(names, SyncedFields(names, local, remote), remote) == SyncedFields(names, local, remote)
  {
    var once := SyncedFields(names, local, remote);
    var twice := SyncedFields(names, once, remote);
    forall n ensures n in twice <==> n in once {
      SyncedFieldAt(names, local, remote, n);
      SyncedFieldAt(names, once, remote, n);
    }
    forall n | n in twice ensures twice[n] == once[n] {
      SyncedFieldAt(names, local, remote, n);
      SyncedFieldAt(names, once, remote, n);
    }
  }

  /** The value of a field, `Null` when the record has none. */
  function Get(f: Fields, name: string): Value {
    if name in f then f[name] else Null
  }

  /** The record's URI, "" when it has none (Python's falsy `not self.uri`). */
  function UriOf(f: Fields): string {
    if "uri" in f && f["uri"].Str? then f["uri"].s else ""
  }

  predicate HasUri(f: Fields) {
    UriOf(f) != ""
  }

  /** A remote object's URI survives `_sync` into any record whose field
      names include "uri". */
  lemma SyncedUri(names: seq<string>, local: Fields, remote: RemoteObject)
    requires "uri" in names
    ensures UriOf(SyncedFields(names, local, remote)) == UriOf(remote)
  {
    SyncedFieldAt(names, local, remote, "uri");
  }

  /** `s[k:]` in Python: empty when s is shorter than k. */
  function Drop(s: string, k: nat): (r: string)
    ensures |s| >= k ==> s == s[..k] + r
    ensures |s| < k ==> r == ""
  {
    if |s| >= k then s[k..] else ""
  }

  const LinkHead := "<a href=\""
  const LinkTail := " target=\"_blank\">View on Balanced</a>"

  /** An anchor around `target`. */
  function Anchor(target: string): string {
    LinkHead + (target + "\"" + LinkTail)
  }

  /** The admin's "View on Balanced" anchor: the dashboard base URL, then
      the URI without its first three characters (the API version prefix
      "/v1"), inside an anchor opening in a new window. */
  function DashboardLink(dashboardUrl: string, uri: string): (r: string)
    ensures |r| >= |LinkHead| + |dashboardUrl|
    ensures r[..|LinkHead|] == LinkHead && r[|LinkHead|..|LinkHead| + |dashboardUrl|] == dashboardUrl
  {
    Anchor(dashboardUrl + Drop(uri, 3))
  }

  /** Everything before the first double quote. */
  function UntilQuote(s: string): (r: string)
    ensures |r| <= |s| && r == s[..|r|]
  {
    if s == [] || s[0] == '"' then [] else [s[0]] + UntilQuote(s[1..])
  }

  /** The target of an anchor that starts with `<a href="`. */
  function HrefOf(link: string): string {
    if |link| >= |LinkHead| && link[..|LinkHead|] == LinkHead then UntilQuote(link[|LinkHead|..]) else ""
  }

  lemma {:induction false} UntilQuoteOfPrefix(x: string, rest: string)
    requires '"' !in x
    ensures UntilQuote(x + "\"" + rest) == x
  {
    if x != [] {
      assert (x + "\"" + rest)[1..] == x[1..] + "\"" + rest;
      UntilQuoteOfPrefix(x[1..], rest);
    }
  }

  /** An anchor's target is recovered from it, when it has no quote. */
  lemma AnchorTarget(target: string)
    requires '"' !in target
    ensures HrefOf(Anchor(target)) == target
  {
    var body := target + "\"" + LinkTail;
    assert (LinkHead + body)[..|LinkHead|] == LinkHead;
    assert (LinkHead + body)[|LinkHead|..] == body;
    UntilQuoteOfPrefix(target, LinkTail);
  }

  /** The link points at the dashboard URL followed by the URI minus its
      first three characters, and nowhere else. */
  lemma DashboardLinkTarget(dashboardUrl: string, uri: string)
    requires '"' !in dashboardUrl && '"' !in uri
    ensures HrefOf(DashboardLink(dashboardUrl, uri)) == dashboardUrl + Drop(uri, 3)
  {
    var rest := Drop(uri, 3);
    assert '"' !in rest by {
      if |uri| >= 3 {
        assert forall k :: 0 <= k < |rest| ==> rest[k] == uri[k + 3];
      }
    }
    AnchorTarget(dashboardUrl + rest);
  }
}

=== FILE: views.dfy ===
/**
 * The bulk payout confirmation view (views.py, AdminBulkPay): a small
 * state machine over the admin user's session. The session holds the
 * selected bank accounts under one key; the view shows one payout form
 * per selected account, and a confirmed, valid batch issues one credit
 * per form and then clears the selection.
 */
module Views {
  import opened Wrappers
  import opened Money
  import opened Forms
  import opened Formsets

  const BulkPayKey := "bank_account_bulk_pay"
  const ChangelistUrl := "admin:django_balanced_bankaccount_changelist"
  const CancelledMessage := "Your payouts have been cancelled"
  const PaidMessage := "Your payouts have been made."

  /** What the view answers: a redirect, with the success message it
      flashes, or the confirmation page with its formset. */
  datatype Response =
    | Redirect(to: string, message: Option<string>)
    | Render(initial: seq<string>, nonFormErrors: seq<string>)

  /** A GET, or a POST: whether it carries `_cancel`, and the submitted
      payout forms (None when the body is empty, which leaves the formset
      unbound). */
  datatype HttpRequest = HttpGet | HttpPost(cancel: bool, data: Option<seq<PayoutInput>>)

  predicate Distinct(s: seq<string>) {
    forall i, j :: 0 <= i < j < |s| ==> s[i] != s[j]
  }

  /** `BankAccount.objects.filter(pk__in=selected)`: the rows of the table,
      in table order, whose key is among the selected ones. */
  function Queryset(bankAccounts: seq<string>, selected: seq<string>): (r: seq<string>)
    ensures forall x :: x in r <==> x in bankAccounts && x in selected
    ensures Distinct(bankAccounts) ==> Distinct(r)
  {
    if bankAccounts == [] then []
    else
      var rest := Queryset(bankAccounts[1..], selected);
      assert forall x :: x in bankAccounts[1..] ==> x in bankAccounts;
      if bankAccounts[0] in selected then [bankAccounts[0]] + rest else rest
  }

  lemma {:induction false} DistinctCardinality(s: seq<string>)
    requires Distinct(s)
    ensures |set x | x in s| == |s|
  {
    if s != [] {
      DistinctCardinality(s[1..]);
      assert (set x | x in s) == (set x | x in s[1..]) + {s[0]};
      assert s[0] !in s[1..];
    }
  }

  /** One initial form per selected key that names an existing bank
      account: unknown keys are dropped and repeated keys collapse. */
  lemma InitialFormsOfSelection(bankAccounts: seq<string>, selected: seq<string>)
    requires Distinct(bankAccounts)
    ensures UnboundFormCount(|Queryset(bankAccounts, selected)|) ==
      |set x | x in selected && x in bankAccounts|
  {
    var r := Queryset(bankAccounts, selected);
    DistinctCardinality(r);
    assert (set x | x in r) == (set x | x in selected && x in bankAccounts);
  }

  /** The credits a batch's `form.save()` calls issue, in form order; a
      form that would fail its save issues none. */
  function Orders(inputs: seq<PayoutInput>, bankAccounts: set<string>): (orders: seq<CreditOrder>)
    ensures |orders| <= |inputs|
  {
    if inputs == [] then []
    else
      var last := SavePayout(inputs[|inputs| - 1], bankAccounts);
      Orders(inputs[..|inputs| - 1], bankAccounts) + (if last.Success? then [last.value] else [])
  }

  function OrderedCents(orders: seq<CreditOrder>): int {
    if orders == [] then 0 else OrderedCents(orders[..|orders| - 1]) + orders[|orders| - 1].cents
  }

  /** A valid last form adds exactly its own credit. */
  lemma OrdersSnoc(inputs: seq<PayoutInput>, bankAccounts: set<string>)
    requires inputs != [] && ValidatePayout(inputs[|inputs| - 1], bankAccounts).Success?
    ensures Orders(inputs, bankAccounts) ==
      Orders(inputs[..|inputs| - 1], bankAccounts) + [SavePayout(inputs[|inputs| - 1], bankAccounts).value]
  {
  }

  /** In a batch of valid forms, the last form and all the others are
      valid. */
  lemma ValidBatchSnoc(inputs: seq<PayoutInput>, bankAccounts: set<string>)
    requires inputs != [] && !AnyErrors(inputs, bankAccounts)
    ensures ValidatePayout(inputs[|inputs| - 1], bankAccounts).Success?
    ensures !AnyErrors(inputs[..|inputs| - 1], bankAccounts)
  {
    assert inputs[|inputs| - 1] in inputs;
    assert forall y :: y in inputs[..|inputs| - 1] ==> y in inputs;
  }

  /** The credit a valid payout form asks for: its bank account, its
      amount in cents and its description. */
  function Proposed(i: PayoutInput): CreditOrder
    requires i.amount.Some? && i.amount.value.places <= 2
  {
    CreditOrder(i.bankAccount, ToCents(i.amount.value), i.description)
  }

  /** A batch of valid forms issues exactly one credit per form, in form
      order, each to the form's bank account for the form's amount in
      cents and with its description. */
  lemma {:induction false} OrdersOfValidBatch(inputs: seq<PayoutInput>, bankAccounts: set<string>)
    requires !AnyErrors(inputs, bankAccounts)
    ensures |Orders(inputs, bankAccounts)| == |inputs|
    ensures forall k :: 0 <= k < |inputs| ==>
      inputs[k].amount.Some? && inputs[k].amount.value.places <= 2 && Orders(inputs, bankAccounts)[k] == Proposed(inputs[k])
  {
    if inputs != [] {
      var init := inputs[..|inputs| - 1];
      var x := inputs[|inputs| - 1];
      ValidBatchSnoc(inputs, bankAccounts);
      OrdersOfValidBatch(init, bankAccounts);
      OrdersSnoc(inputs, bankAccounts);
      var before := Orders(init, bankAccounts);
      var last := SavePayout(x, bankAccounts).value;
      assert last == Proposed(x);
      var orders := before + [last];
      forall k | 0 <= k < |inputs|
        ensures inputs[k].amount.Some? && inputs[k].amount.value.places <= 2 && orders[k] == Proposed(inputs[k])
      {
        if k < |init| {
          assert orders[k] == before[k] && inputs[k] == init[k];
        }
      }
    }
  }

  /** A valid last form adds exactly its own cents to what is credited. */
  lemma OrderedCentsSnoc(inputs: seq<PayoutInput>, bankAccounts: set<string>)
    requires inputs != [] && ValidatePayout(inputs[|inputs| - 1], bankAccounts).Success?
    ensures OrderedCents(Orders(inputs, bankAccounts)) ==
      OrderedCents(Orders(inputs[..|inputs| - 1], bankAccounts)) + FormCents(inputs[|inputs| - 1], bankAccounts)
  {
    OrdersSnoc(inputs, bankAccounts);
    var orders := Orders(inputs, bankAccounts);
    assert orders[..|orders| - 1] == Orders(inputs[..|inputs| - 1], bankAccounts);
  }

  /** The batch total is that of all but the last form plus the last. */
  lemma TotalCentsSnoc(inputs: seq<PayoutInput>, bankAccounts: set<string>)
    requires inputs != []
    ensures TotalCents(inputs, bankAccounts) ==
      TotalCents(inputs[..|inputs| - 1], bankAccounts) + FormCents(inputs[|inputs| - 1], bankAccounts)
  {
    TotalCentsRemove(inputs, bankAccounts, |inputs| - 1);
    assert inputs[..|inputs| - 1] + inputs[|inputs|..] == inputs[..|inputs| - 1];
  }

  /** The credits of a valid batch add up to the batch total. */
  lemma {:induction false} OrdersCents(inputs: seq<PayoutInput>, bankAccounts: set<string>)
    requires !AnyErrors(inputs, bankAccounts)
    ensures OrderedCents(Orders(inputs, bankAccounts)) == TotalCents(inputs, bankAccounts)
  {
    if inputs != [] {
      var init := inputs[..|inputs| - 1];
      ValidBatchSnoc(inputs, bankAccounts);
      OrdersCents(init, bankAccounts);
      OrderedCentsSnoc(inputs, bankAccounts);
      TotalCentsSnoc(inputs, bankAccounts);
    }
  }

  /** A valid batch never credits more than the escrow holds. */
  lemma ValidBatchWithinEscrow(inputs: seq<PayoutInput>, bankAccounts: set<string>, escrow: int)
    requires IsValid(inputs, bankAccounts, escrow)
    ensures OrderedCents(Orders(inputs, bankAccounts)) <= escrow
  {
    OrdersCents(inputs, bankAccounts);
  }

  /** The admin user's session, the bank-account table's primary keys in
      table order, and the log of credits issued. */
  class AdminSession {
    var session: map<string, seq<string>>
    const bankAccounts: seq<string>
    var credits: seq<CreditOrder>

    constructor (session: map<string, seq<string>>, bankAccounts: seq<string>)
      ensures this.session == session && this.bankAccounts == bankAccounts && credits == []
    {
      this.session := session;
      this.bankAccounts := bankAccounts;
      credits := [];
    }

    /** The keys a ModelChoiceField over BankAccount.objects accepts. */
    function Known(): set<string> {
      set x | x in bankAccounts
    }

    /** `payout_complete`: drop the selection and go back to the
        bank-account list with a success message. */
    method PayoutComplete(message: string) returns (resp: Response)
      requires BulkPayKey in session
      modifies this
      ensures session == old(session) - {BulkPayKey}
      ensures credits == old(credits)
      ensures resp == Redirect(ChangelistUrl, Some(message))
    {
      session := session - {BulkPayKey};
      resp := Redirect(ChangelistUrl, Some(message));
    }

    /** `dispatch`, then `get` or `post`. */
    method Dispatch(req: HttpRequest, escrow: int) returns (resp: Response)
      modifies this
      ensures BulkPayKey !in old(session) ==>
        resp == Redirect("../", None) && session == old(session) && credits == old(credits)
      ensures BulkPayKey in old(session) && req.HttpGet? ==>
        && resp == Render(Queryset(bankAccounts, old(session)[BulkPayKey]), [])
        && session == old(session) && credits == old(credits)
      ensures BulkPayKey in old(session) && req.HttpPost? && req.cancel ==>
        && resp == Redirect(ChangelistUrl, Some(CancelledMessage))
        && session == old(session) - {BulkPayKey} && credits == old(credits)
      ensures BulkPayKey in old(session) && req.HttpPost? && !req.cancel && req.data.Some? && IsValid(req.data.value, Known(), escrow) ==>
        && resp == Redirect(ChangelistUrl, Some(PaidMessage))
        && session == old(session) - {BulkPayKey}
        && credits == old(credits) + Orders(req.data.value, Known())
      ensures BulkPayKey in old(session) && req.HttpPost? && !req.cancel && req.data.None? ==>
        && resp == Render(Queryset(bankAccounts, old(session)[BulkPayKey]), [])
        && session == old(session) && credits == old(credits)
      ensures BulkPayKey in old(session) && req.HttpPost? && !req.cancel && req.data.Some? && !IsValid(req.data.value, Known(), escrow) ==>
        && resp == Render(Queryset(bankAccounts, old(session)[BulkPayKey]), Clean(req.data.value, Known(), escrow))
        && session == old(session) && credits == old(credits)
    {
      if BulkPayKey !in session {
        return Redirect("../", None);
      }
      var initial := Queryset(bankAccounts, session[BulkPayKey]);
      match req
      case HttpGet =>
        resp := Render(initial, []);
      case HttpPost(cancel, data) =>
        if cancel {
          resp := PayoutComplete(CancelledMessage);
          return;
        }
        if data.Some? && IsValid(data.value, Known(), escrow) {
          var inputs := data.value;
          var k := 0;
          while k < |inputs|
            invariant 0 <= k <= |inputs|
            invariant session == old(session)
            invariant credits == old(credits) + Orders(inputs[..k], Known())
          {
            assert inputs[k] in inputs;
            var saved := SavePayout(inputs[k], Known());
            credits := credits + [saved.value];
            assert inputs[..k + 1][..k] == inputs[..k];
            k := k + 1;
          }
          assert inputs[..k] == inputs;
          resp := PayoutComplete(PaidMessage);
        } else {
          resp := Render(initial, if data.Some? then Clean(data.value, Known(), escrow) else []);
        }
    }
  }
}

=== FILE: wrappers.dfy ===
/** The optional value and the success-or-failure value used across the model. */
module Wrappers {
  datatype Option<T> = None | Some(value: T)

  datatype Result<T, E> = Success(value: T) | Failure(error: E)
}
